=== FILE: README.md ===
# Poker hand evaluator — a Dafny model

This project models the evaluator in `PockerGame/PockerGame/Program.cs`. The program
reads two five-card poker hands. It classifies each hand by trying ten matchers in a
fixed order, strongest first, and keeping the first that accepts. It then compares the
two matchers: first by strength, then rank by rank over the matcher's sorted cards.

The model follows the program as written, not textbook poker, and proves its quirks:

- The straight check compares each card of a descending sort with the next one as if
  the sort were ascending. It can therefore only accept hands of at most two cards.
- Because of that, the royal flush matcher never accepts a real hand.
- The "straight flush" matcher accepts every single-suit hand, whatever its ranks. Its
  sorted cards come from an inner straight matcher that is never run, so they are null.
- The plain flush matcher sits behind the straight flush matcher and is never chosen.
- Two single-suit hands of three or more cards cannot be compared: the tie-break reads
  a null array.

Modules, one per part of the program:

- `Wrappers`: `Option` and `Result`.
- `Cards`: the `Card` constructor (token to rank and suit), with its error cases.
- `Hands`: rank counts, rank groups and the distinct ranks of a hand (what `GroupBy`
  computes).
- `Sorting`: the stable descending sort on rank (`OrderByDescending`), and the proof
  that it is the only stable descending ordering of a hand.
- `Grouping`: rank groups selected by size, in order of first occurrence
  (`GroupBy(..).Where(..).SelectMany(..)`).
- `Matchers`: the ten matchers. Each returns `MatchResult(matched, sortedCards)`.
  `sortedCards` is what the matcher's `SortedCards` holds after one call on a fresh
  object, with `None` standing for a null array.
- `Comparer`: `MatcheComparer.Compare`. The two ways it can throw are modelled as a
  `Fault`.
- `Pipeline`: the matcher order in `Main`, the first-match classification, and the
  verdict.
- `Shapes`: which matcher classifies hands of a given rank shape.
- `Scenarios`: the sample input of `Main` and other concrete hands.

Two verdicts are modelled:

- `Showdown` compares the two hands' classifications as if each had its own matcher
  objects.
- `MainVerdict` is what `Main` actually computes. `Main` shares one list of matcher
  objects between both hands, and a matcher keeps the sorted cards of the last hand it
  saw. When both hands land on the same matcher, that one object is compared with
  itself. The result is then a draw, or a null-array fault for the straight flush
  matcher (`SameCategoryNoWinner`). `AcesAgainstSevens` shows a pair of aces that beats a
  pair of sevens under `Showdown` but draws under `MainVerdict`.

## Model

| member | source | states |
|---|---|---|
| `Cards.RankValue` | PockerGame/PockerGame/Program.cs:61-71 | a rank character has a value exactly when it is T, J, Q, K, A or a decimal digit; every value lies in 0..14 |
| `Cards.ParseCard` | PockerGame/PockerGame/Program.cs:57-73 | a token shorter than two characters (Unicode scalar values) fails (the index of the suit is out of range); the suit is always the second character; the token parses exactly when its first character is a face letter or a digit; a valid rank character gives a rank in 2..14, and a digit 2..9 gives its own value |
| `Cards.FaceRanks` | PockerGame/PockerGame/Program.cs:63-67 | T, J, Q, K and A parse to ranks 10, 11, 12, 13 and 14, whatever the suit |
| `Cards.ParseTwo` | PockerGame/PockerGame/Program.cs:57-72 | a two-character token whose rank character has a value parses to the card with that rank and the second character as suit |
| `Cards.RankCharValue` | PockerGame/PockerGame/Program.cs:61-71 | every rank 2..14 has a rank character that parses back to it |
| `Cards.ValueRankChar` | PockerGame/PockerGame/Program.cs:61-71 | every valid rank character parses to a rank in 2..14 whose rank character is itself |
| `Cards.ParseFormat` | PockerGame/PockerGame/Program.cs:57-72 | parsing the two-character token of any card of rank 2..14 gives back that card |
| `Cards.FormatParse` | PockerGame/PockerGame/Program.cs:57-72 | every two-character token with a valid rank character parses, and formatting the card gives back the token |
| `Comparer.CompareFrom` | PockerGame/PockerGame/Program.cs:86-92 | the loop from position i: a null right array faults; a shorter right array faults exactly when the ranks agree up to its end; otherwise the result is 0 exactly when all ranks agree, and 1 or -1 exactly when the first differing rank is higher or lower on the left |
| `Comparer.Compare` | PockerGame/PockerGame/Program.cs:78-93 | different strengths decide by strength alone, without reading the cards; equal strength with a null left array faults; every result is -1, 0 or 1 |
| `Comparer.CompareTieBreak` | PockerGame/PockerGame/Program.cs:83-92 | on equal strength and orderings of equal length, the result is 0 exactly when all ranks agree, and otherwise the sign of the first position whose ranks differ |
| `Comparer.CompareFromSwap` | PockerGame/PockerGame/Program.cs:86-90 | swapping two orderings of equal length negates the loop's result |
| `Comparer.CompareAntisymmetric` | PockerGame/PockerGame/Program.cs:78-93 | for comparable matchers, `Compare(y, x)` is the negation of `Compare(x, y)` |
| `Comparer.CompareReflexive` | PockerGame/PockerGame/Program.cs:83-92 | a matcher with sorted cards compares equal to itself |
| `Comparer.CompareFromTransitive` | PockerGame/PockerGame/Program.cs:86-90 | if a beats b and b beats c on the cards, then a beats c |
| `Comparer.CompareTransitive` | PockerGame/PockerGame/Program.cs:78-93 | "stronger than" is transitive among comparable matchers |
| `Hands.Distinct` | PockerGame/PockerGame/Program.cs:132 | the group keys of a `GroupBy`: every key of the input is listed, only keys of the input are listed, none twice |
| `Hands.DistinctFirstOccurrence` | PockerGame/PockerGame/Program.cs:132 | the keys are listed in order of their first occurrence in the input |
| `Hands.RankGroupCount` | PockerGame/PockerGame/Program.cs:132-133 | the number of rank groups is at most the number of cards, and zero only for an empty hand |
| `Hands.RankGroupsFewer` | PockerGame/PockerGame/Program.cs:132-133 | there are fewer rank groups than cards exactly when two cards share a rank |
| `Hands.ColorGroupCount` | PockerGame/PockerGame/Program.cs:217 | the number of suit groups is at most the number of cards, and zero only for an empty hand |
| `Hands.ColorGroupSingle` | PockerGame/PockerGame/Program.cs:217 | there is exactly one suit group exactly when all cards share one suit |
| `Hands.WithNumber` | PockerGame/PockerGame/Program.cs:132 | a card is in the rank group exactly when it is in the hand and has that rank, and the group is no longer than the hand |
| `Hands.WithNumberContents` | PockerGame/PockerGame/Program.cs:132 | a rank group holds each card of that rank as many times as the hand does, and no other card |
| `Hands.WithNumberAppend` | PockerGame/PockerGame/Program.cs:132 | the group of a concatenation is the two groups concatenated, so a group keeps the hand's order |
| `Hands.AnyGroupOfSize` | PockerGame/PockerGame/Program.cs:173 | a group size that some rank has is positive and at most the size of the hand |
| `Hands.AnyGroupOfSizeMeans` | PockerGame/PockerGame/Program.cs:173 | `Any(g => g.Count() == size)` holds exactly when some rank has exactly `size` cards |
| `Sorting.Insert` | PockerGame/PockerGame/Program.cs:122 | inserting a card adds exactly that card, at the front of its rank group |
| `Sorting.InsertDescending` | PockerGame/PockerGame/Program.cs:122 | inserting into a descending sequence keeps it descending |
| `Sorting.SortDescending` | PockerGame/PockerGame/Program.cs:122 | the result is descending in rank, a permutation of the hand, and keeps each rank's cards in hand order (a stable sort) |
| `Sorting.DescendingGroupsDetermine` | PockerGame/PockerGame/Program.cs:193 | two descending sequences with the same rank groups are equal |
| `Sorting.SortDescendingUnique` | PockerGame/PockerGame/Program.cs:193 | every descending ordering that keeps each rank group in hand order is the stable sort of the hand |
| `Grouping.SelectGroups` | PockerGame/PockerGame/Program.cs:136 | the selected groups hold, for each rank, all of its cards in hand order when the filter admits the rank's count, and no card otherwise |
| `Grouping.GatherGroup` | PockerGame/PockerGame/Program.cs:136 | gathering the groups of distinct keys yields, for each rank, its group if the rank is a key and the filter admits it, and nothing otherwise |
| `Grouping.GatherOrdered` | PockerGame/PockerGame/Program.cs:136 | gathering groups along keys in order of first occurrence keeps every card in order of the first occurrence of its rank |
| `Matchers.Kickers` | PockerGame/PockerGame/Program.cs:137 | the single cards of the hand, highest first |
| `Matchers.HeadThenKickers` | PockerGame/PockerGame/Program.cs:136-139 | admitted groups followed by the kickers keep every admitted rank and every single card, and no kicker precedes a grouped card |
| `Matchers.LeadingCardGrouped` | PockerGame/PockerGame/Program.cs:136-139 | when the hand has an admitted group, the first card of the ordering belongs to one |
| `Matchers.SortedHeadThenKickers` | PockerGame/PockerGame/Program.cs:156-158 | with the repeated ranks sorted, ranks only fall, except from a repeated rank to a kicker |
| `Matchers.HeadThenKickersOrder` | PockerGame/PockerGame/Program.cs:136-138 | the grouped cards of the head-then-kickers ordering come in order of the first occurrence of their ranks |
| `Matchers.EveryRankKept` | PockerGame/PockerGame/Program.cs:136-139 | an ordering that keeps the admitted groups and the kickers is a permutation of the hand when every rank is admitted or held by one card |
| `Matchers.FirstDealtLeads` | PockerGame/PockerGame/Program.cs:136-139 | an ordering with its groups in order of first occurrence opens with the rank of the first card dealt when that card is paired |
| `Matchers.HighestPairLeads` | PockerGame/PockerGame/Program.cs:156-158 | an ordering whose ranks only fall, except from a repeated rank to a kicker, opens with the highest repeated rank |
| `Matchers.HighCardMatch` | PockerGame/PockerGame/Program.cs:116-124 | always matches; the ordering is the stable descending sort of the hand |
| `Matchers.OnePairMatch` | PockerGame/PockerGame/Program.cs:127-143 | matches exactly when the hand has fewer than five distinct ranks; on a match, the cards of repeated ranks come first, in order of first occurrence, then the single cards, highest first; the ordering is a permutation of the hand; no ordering on failure |
| `Matchers.TwoPairsMatch` | PockerGame/PockerGame/Program.cs:146-163 | matches exactly when the hand has fewer than four distinct ranks; repeated ranks first, sorted descending, then the single cards, highest first, as a permutation of the hand |
| `Matchers.ThreeCardsMatch` | PockerGame/PockerGame/Program.cs:166-183 | matches exactly when some rank occurs exactly three times; that group first, then the single cards, highest first; a pair is dropped |
| `Matchers.RunFrom` | PockerGame/PockerGame/Program.cs:197-206 | the loop accepts exactly when each card from position i up to the second-to-last is one rank above the card before it |
| `Matchers.StraightMatch` | PockerGame/PockerGame/Program.cs:186-209 | matches exactly when the hand has at most two cards; the ordering is always set, to the stable descending sort, even on failure |
| `Matchers.FlushMatch` | PockerGame/PockerGame/Program.cs:212-225 | matches exactly when all cards share one suit; on a match, the stable descending sort |
| `Matchers.FullHouseMatch` | PockerGame/PockerGame/Program.cs:228-247 | matches exactly when the hand has two distinct ranks and no single card; on a match, plain descending order |
| `Matchers.FourOfAKindMatch` | PockerGame/PockerGame/Program.cs:250-269 | matches exactly when some rank occurs exactly four times; that group first, then the single cards, highest first |
| `Matchers.StraightFlushMatch` | PockerGame/PockerGame/Program.cs:272-287 | matches exactly when all cards share one suit, whatever the ranks; the ordering is always null |
| `Matchers.RoyalFlushMatch` | PockerGame/PockerGame/Program.cs:290-306 | matches exactly when all cards share one suit and there are at most two cards; on a match, the inner straight matcher's descending sort |
| `Matchers.Strength` | PockerGame/PockerGame/Program.cs:118-295 | each matcher's strength lies in 1..10 and is never 9; it is 10 exactly for the royal flush and straight flush matchers |
| `Matchers.Match` | PockerGame/PockerGame/Program.cs:96-114 | a matcher accepts exactly the hands its acceptance condition describes; it leaves no sorted cards exactly when it is the straight flush matcher, or when it rejects and is not the straight matcher |
| `Matchers.OnePairLeader` | PockerGame/PockerGame/Program.cs:127-143 | when the first card dealt is paired, the one pair matcher opens with its rank, whatever higher pair the hand holds |
| `Matchers.TwoPairsLeader` | PockerGame/PockerGame/Program.cs:146-163 | the two pairs matcher opens with the highest paired rank |
| `Pipeline.Position` | PockerGame/PockerGame/Program.cs:16-28 | every matcher has one place in the matcher list |
| `Pipeline.PositionInOrder` | PockerGame/PockerGame/Program.cs:16-28 | each matcher is listed once: the matcher at each place of the list has that place |
| `Pipeline.FirstTrue` | PockerGame/PockerGame/Program.cs:30-31 | `First` over the matchers' verdicts: the place found holds a match and no earlier place does |
| `Pipeline.Classify` | PockerGame/PockerGame/Program.cs:16-31 | the chosen matcher accepts the hand, no matcher earlier in the list does, and the strength and sorted cards are that matcher's (so some matcher is always chosen) |
| `Pipeline.Showdown` | PockerGame/PockerGame/Program.cs:30-34 | with separate matcher objects per hand, the stronger classification wins outright |
| `Pipeline.MainVerdict` | PockerGame/PockerGame/Program.cs:16-34 | with matcher objects shared between the hands: hands on different matchers get the plain comparison; hands on the same matcher give a draw, or a null-array fault when the matcher has no sorted cards |
| `Pipeline.ClassifySortedCards` | PockerGame/PockerGame/Program.cs:16-31 | a classification lacks sorted cards exactly when the straight flush matcher made it |
| `Pipeline.SameCategoryNoWinner` | PockerGame/PockerGame/Program.cs:30-34 | two hands on the same matcher never have a winner: a draw, except that two straight flushes fault |
| `Pipeline.StrengthFollowsOrder` | PockerGame/PockerGame/Program.cs:16-28 | strengths never rise along the matcher list; equal strengths only for the same matcher or royal flush before straight flush |
| `Pipeline.ClassifyStrongest` | PockerGame/PockerGame/Program.cs:16-31 | the classification is at least as strong as any matcher that accepts the hand |
| `Pipeline.ClassifyIs` | PockerGame/PockerGame/Program.cs:16-31 | a matcher that accepts, with no earlier matcher accepting, is the classification |
| `Pipeline.FlushShadowed` | PockerGame/PockerGame/Program.cs:19-22 | the plain flush matcher never classifies a hand |
| `Pipeline.StraightAndRoyalUnreachable` | PockerGame/PockerGame/Program.cs:197-206 | no hand of three or more cards is classified as a straight or a royal flush |
| `Pipeline.SingleSuitIsStraightFlush` | PockerGame/PockerGame/Program.cs:277-286 | every single-suit hand of three or more cards is a straight flush of strength 10 without sorted cards |
| `Pipeline.StrengthTenIffSingleSuit` | PockerGame/PockerGame/Program.cs:276-279 | a hand gets strength 10 exactly when all its cards share one suit |
| `Pipeline.TwoSingleSuitHandsFault` | PockerGame/PockerGame/Program.cs:83-88 | comparing two single-suit hands of three or more cards reads a null array |
| `Shapes.OnePairOnFive` | PockerGame/PockerGame/Program.cs:132-133 | on five cards, the one pair matcher accepts exactly when two cards share a rank |
| `Shapes.FullHouseOnFive` | PockerGame/PockerGame/Program.cs:235-238 | on five cards, the full house matcher accepts exactly a three of one rank with a pair of another |
| `Shapes.DistinctRanksMixedSuitsIsHighCard` | PockerGame/PockerGame/Program.cs:16-31 | five distinct ranks in more than one suit are a high card hand, even when the ranks form a run |
| `Shapes.FourGroupsIsOnePair` | PockerGame/PockerGame/Program.cs:16-31 | a mixed-suit hand with four distinct ranks and no three or four of a kind is a one pair hand |
| `Shapes.FullHouseIsClassified` | PockerGame/PockerGame/Program.cs:16-31 | a mixed-suit five-card hand with a three and a pair is a full house of strength 7 |
| `Shapes.ThreeCardsIsClassified` | PockerGame/PockerGame/Program.cs:16-31 | a mixed-suit hand with a three of a kind, no four of a kind and not two distinct ranks is three cards of strength 4 |
| `Shapes.FourOfAKindKeepsFive` | PockerGame/PockerGame/Program.cs:257-265 | on five cards with four of a kind, the four of a kind matcher keeps all five cards |
| `Shapes.NoPairBesideThree` | PockerGame/PockerGame/Program.cs:166-183 | five cards with three of a kind that the full house matcher rejects hold no pair |
| `Shapes.ThreeCardsKeepsFive` | PockerGame/PockerGame/Program.cs:172-179 | on five cards with three of a kind and no pair, the three cards matcher keeps all five cards |
| `Shapes.ChosenKeepsFive` | PockerGame/PockerGame/Program.cs:16-31 | on five cards, a matcher other than the straight flush matcher that accepts the hand with no earlier matcher accepting it keeps all five cards |
| `Shapes.ClassifyKeepsFive` | PockerGame/PockerGame/Program.cs:30-31 | on five cards every classification but the straight flush carries five sorted cards |
| `Shapes.ShowdownOnStrengthTen` | PockerGame/PockerGame/Program.cs:78-88 | two five-card hands of strength 10 make the comparison read a null array |
| `Shapes.ShowdownTieBreak` | PockerGame/PockerGame/Program.cs:78-93 | two five-card hands of equal strength below 10 are compared on five cards each: a draw exactly when all ranks agree, otherwise the sign of the first differing rank |
| `Scenarios.SampleParses` | PockerGame/PockerGame/Program.cs:11-14 | the ten tokens of the sample input parse to the two sample hands |
| `Scenarios.SampleOutcome` | PockerGame/PockerGame/Program.cs:11-34 | the sample left hand is a straight flush of strength 10 without sorted cards, the right hand a pair of strength 2, and the left hand wins |
| `Scenarios.SampleMainVerdict` | PockerGame/PockerGame/Program.cs:30-34 | with shared matchers, the sample input still gives the left hand the win |
| `Scenarios.OnePairLeads` | PockerGame/PockerGame/Program.cs:136-139 | a one pair hand's ordering keeps all its cards and opens with a card of a repeated rank |
| `Scenarios.AcesAgainstSevens` | PockerGame/PockerGame/Program.cs:30-34 | a pair of aces beats a pair of sevens when compared on their own, but `Main` calls it a draw |
| `Scenarios.RoyalHandIsStraightFlush` | PockerGame/PockerGame/Program.cs:298 | the textbook royal flush is a straight flush without sorted cards |
| `Scenarios.RoyalAgainstSampleLeftFaults` | PockerGame/PockerGame/Program.cs:83-88 | the textbook royal flush cannot be compared with the all-hearts sample hand |
| `Scenarios.WheelIsHighCard` | PockerGame/PockerGame/Program.cs:197-206 | the ace-low straight is a high card hand |
| `Scenarios.TwosOverFivesOrder` | PockerGame/PockerGame/Program.cs:243 | the full house ordering of three twos and two fives puts the pair of fives first |
| `Scenarios.FullHouseBeatsThreeCards` | PockerGame/PockerGame/Program.cs:80 | a full house beats three of a kind on strength |
| `Scenarios.SevensNinesOnePairOrder` | PockerGame/PockerGame/Program.cs:127-143 | for 7D 9D 7H 9H KS, the one pair matcher opens with the sevens, although the nines are higher |
| `Scenarios.SevensNinesTwoPairsOrder` | PockerGame/PockerGame/Program.cs:146-163 | for 7D 9D 7H 9H KS, the two pairs matcher opens with the nines |

## Left out

- Console output (lines 36-47). The verdict is the model's result. The messages are not
  modelled; both non-zero branches print the same message.
- The hard-coded input string and its split into two hands of five tokens (lines 11-14).
  Hands are inputs. `Scenarios.SampleParses` ties the sample tokens to the sample hands.
- .NET exceptions are not raised. Each one the code can reach is a value instead, except
  the empty-hand case below: a `ParseError` from the `Card` constructor, and a `Fault`
  from `Compare`.
- `Cards.ParseCard` models the failure of `int.Parse` on a non-digit as an error value,
  rather than forbidding such tokens up front. It also reads a token as a sequence of
  Unicode scalar values, where C# indexes UTF-16 code units. A character outside the
  Basic Multilingual Plane is one character here but two code units in C#, so such
  tokens split differently: "😀" is a missing suit here but an invalid rank in C#, and
  "7😀" and "7😃" get different suits here but the same suit (the high surrogate) in C#.
  Hands of such cards can therefore be classified differently.
- `Matchers.StraightMatch` and `Pipeline.Classify` require a non-empty hand. On an empty
  hand the straight matcher reads position 0 of an empty array; this path is not
  modelled.
- `Hands.WithNumber`: its own contract states membership and length only. The number of
  copies of each card is stated by `Hands.WithNumberContents`, and the hand order by
  `Hands.WithNumberAppend`. They are separate lemmas because the function appears in
  every proof about a concrete hand, and a quantified multiset clause there makes those
  proofs too expensive.
- LINQ deferred evaluation and object identity are not modelled. `GroupBy` is modelled
  as rank groups in order of first occurrence, and `OrderByDescending` as a stable
  insertion sort.
- `Pipeline.MainVerdict` is stated for the two classifications only. The matcher objects
  themselves are not modelled as mutable state.
- Textbook poker rankings are not modelled; the model follows the code. The straight
  check compares the gaps between cards the wrong way round, so it never accepts three
  or more cards. The straight flush matcher asks only for one suit. The royal flush
  matcher therefore never accepts a five-card hand.

=== FILE: cards.dfy ===
/** Cards and the two-character tokens they are built from ("KH", "7D", "TS"). */
module Cards {
  import opened Wrappers

  /** A card: `color` is the suit character, `number` the rank (2..14 for valid tokens). */
  datatype Card = Card(color: char, number: int)

  /** Why a token does not make a card: it has no second character (the suit read
      throws IndexOutOfRangeException), or its first character is neither a face letter
      nor a decimal digit (int.Parse throws FormatException). */
  datatype ParseError = MissingColor | InvalidRank(sign: char)

  /** The rank characters a well-formed token uses, lowest rank first. */
  const RankChars: string := "23456789TJQKA"

  predicate IsRankChar(ch: char) {
    ch in RankChars
  }

  /** The face letters: ten, jack, queen, king, ace. */
  predicate IsFaceChar(ch: char) {
    ch == 'T' || ch == 'J' || ch == 'Q' || ch == 'K' || ch == 'A'
  }

  /** The number the constructor assigns to rank character `sign`: the face letters
      T, J, Q, K, A give 10..14; anything else goes through int.Parse, which accepts a
      single decimal digit (so '0' and '1' give 0 and 1) and throws otherwise. */
  function RankValue(sign: char): (r: Option<int>)
    ensures r.Some? <==> IsFaceChar(sign) || '0' <= sign <= '9'
    ensures r.Some? ==> 0 <= r.value <= 14
  {
    if sign == 'T' then Some(10)
    else if sign == 'J' then Some(11)
    else if sign == 'Q' then Some(12)
    else if sign == 'K' then Some(13)
    else if sign == 'A' then Some(14)
    else if '0' <= sign <= '9' then Some(sign as int - '0' as int)
    else None
  }

  /** The `Card(string)` constructor: the suit is the second character, the rank the
      first; characters after the second are ignored. */
  function ParseCard(token: string): (r: Result<Card, ParseError>)
    ensures |token| < 2 ==> r == Err(MissingColor)
    ensures r.Ok? ==> r.value.color == token[1]
    ensures |token| >= 2 ==> (r.Ok? <==> IsFaceChar(token[0]) || '0' <= token[0] <= '9')
    ensures |token| >= 2 && IsRankChar(token[0]) ==> r.Ok? && 2 <= r.value.number <= 14
    ensures |token| >= 2 && '2' <= token[0] <= '9' ==> r.Ok? && r.value.number == token[0] as int - '0' as int
  {
    if |token| < 2 then Err(MissingColor)
    else
      match RankValue(token[0])
      case None => Err(InvalidRank(token[0]))
      case Some(n) => Ok(Card(token[1], n))
  }

  /** The rank character of a number in 2..14: the inverse of the rank mapping. */
  function RankChar(n: int): (ch: char)
    requires 2 <= n <= 14
    ensures IsRankChar(ch)
  {
    RankChars[n - 2]
  }

  /** The two-character token of a card of rank 2..14. */
  function FormatCard(c: Card): (token: string)
    requires 2 <= c.number <= 14
    ensures |token| == 2 && IsRankChar(token[0]) && token[1] == c.color
  {
    [RankChar(c.number), c.color]
  }

  /** Parsing maps the face letters T, J, Q, K, A to 10..14. */
  lemma FaceRanks(suit: char)
    ensures ParseCard(['T', suit]) == Ok(Card(suit, 10))
    ensures ParseCard(['J', suit]) == Ok(Card(suit, 11))
    ensures ParseCard(['Q', suit]) == Ok(Card(suit, 12))
    ensures ParseCard(['K', suit]) == Ok(Card(suit, 13))
    ensures ParseCard(['A', suit]) == Ok(Card(suit, 14))
  {
    ParseTwo('T', suit, 10);
    ParseTwo('J', suit, 11);
    ParseTwo('Q', suit, 12);
    ParseTwo('K', suit, 13);
    ParseTwo('A', suit, 14);
  }

  /** A rank character followed by a suit parses to that rank and suit. */
  lemma ParseTwo(sign: char, suit: char, n: int)
    requires RankValue(sign) == Some(n)
    ensures ParseCard([sign, suit]) == Ok(Card(suit, n))
  {
    var token := [sign, suit];
    assert token[0] == sign && token[1] == suit;
  }

  /** The rank character of `n` maps back to `n`. */
  lemma RankCharValue(n: int)
    requires 2 <= n <= 14
    ensures RankValue(RankChar(n)) == Some(n)
  {
    if n <= 9 {
      assert RankChars[n - 2] as int == '0' as int + n;
    } else if n == 10 {
    } else if n == 11 {
    } else if n == 12 {
    } else if n == 13 {
    }
  }

  /** A rank character is the rank character of its own value. */
  lemma ValueRankChar(ch: char)
    requires IsRankChar(ch)
    ensures RankValue(ch).Some? && 2 <= RankValue(ch).value <= 14
    ensures RankChar(RankValue(ch).value) == ch
  {
    var i :| 0 <= i < |RankChars| && RankChars[i] == ch;
    RankCharValue(i + 2);
  }

  /** Formatting a card and parsing the token gives the card back. */
  lemma ParseFormat(c: Card)
    requires 2 <= c.number <= 14
    ensures ParseCard(FormatCard(c)) == Ok(c)
  {
    RankCharValue(c.number);
  }

  /** A two-character token with a valid rank character is the format of the card it parses to. */
  lemma FormatParse(token: string)
    requires |token| == 2 && IsRankChar(token[0])
    ensures ParseCard(token).Ok?
    ensures FormatCard(ParseCard(token).value) == token
  {
    ValueRankChar(token[0]);
    assert token == [token[0], token[1]];
  }
}

=== FILE: comparer.dfy ===
/** `MatcheComparer.Compare`: strength first, then the sorted cards rank by rank. */
module Comparer {
  import opened Wrappers
  import opened Cards
  import opened Matchers

  /** Why a comparison throws: a null `SortedCards` (NullReferenceException) or a right
      array shorter than the left one (IndexOutOfRangeException). */
  datatype Fault = NullReference | IndexOutOfRange

  /** `a` and `b` have equal ranks at every position in [lo, hi). */
  predicate RanksAgree(a: seq<Card>, b: seq<Card>, lo: nat, hi: nat)
    requires lo <= hi <= |a| && hi <= |b|
  {
    forall k :: lo <= k < hi ==> a[k].number == b[k].number
  }

  /** Position `k` is the first at or after `lo` where the ranks of `a` and `b` differ. */
  predicate FirstDifference(a: seq<Card>, b: seq<Card>, lo: nat, k: nat)
    requires lo <= k < |a| && k < |b|
  {
    RanksAgree(a, b, lo, k) && a[k].number != b[k].number
  }

  /** The comparison loop from position `i` of the left array `a` against the right array `b`. */
  function CompareFrom(a: seq<Card>, b: Option<seq<Card>>, i: nat): (r: Result<int, Fault>)
    requires i <= |a|
    ensures r.Ok? ==> -1 <= r.value <= 1
    ensures i < |a| && b.None? ==> r == Err(NullReference)
    ensures b.Some? && i <= |b.value| < |a| ==>
      (r == Err(IndexOutOfRange) <==> RanksAgree(a, b.value, i, |b.value|))
    ensures b.Some? && |a| <= |b.value| ==> r.Ok?
    ensures b.Some? && |a| <= |b.value| ==> (r == Ok(0) <==> RanksAgree(a, b.value, i, |a|))
    ensures b.Some? && |a| <= |b.value| ==> (r == Ok(1) <==>
      exists k :: i <= k < |a| && FirstDifference(a, b.value, i, k) && a[k].number > b.value[k].number)
    ensures b.Some? && |a| <= |b.value| ==> (r == Ok(-1) <==>
      exists k :: i <= k < |a| && FirstDifference(a, b.value, i, k) && a[k].number < b.value[k].number)
    decreases |a| - i
  {
    if i == |a| then Ok(0)
    else
      match b
      case None => Err(NullReference)
      case Some(cards) =>
        if i >= |cards| then Err(IndexOutOfRange)
        else if a[i].number > cards[i].number then Ok(1)
        else if a[i].number < cards[i].number then Ok(-1)
        else
          assert forall k :: i < k < |a| && k < |cards| ==>
            (FirstDifference(a, cards, i, k) <==> FirstDifference(a, cards, i + 1, k));
          CompareFrom(a, b, i + 1)
  }

  /** `Compare(x, y)`: 1 when `x` is stronger, -1 when weaker, and on equal strength the
      first position where the sorted cards differ in rank decides; 0 when none does. */
  function Compare(x: Classification, y: Classification): (r: Result<int, Fault>)
    ensures x.strength != y.strength ==> r == Ok(if x.strength > y.strength then 1 else -1)
    ensures x.strength == y.strength && x.sortedCards.None? ==> r == Err(NullReference)
    ensures r.Ok? ==> -1 <= r.value <= 1
  {
    if x.strength > y.strength then Ok(1)
    else if x.strength < y.strength then Ok(-1)
    else
      match x.sortedCards
      case None => Err(NullReference)
      case Some(a) => CompareFrom(a, y.sortedCards, 0)
  }

  /** Both classifications carry sorted cards, of the same length. */
  predicate Comparable(x: Classification, y: Classification) {
    x.sortedCards.Some? && y.sortedCards.Some? && |x.sortedCards.value| == |y.sortedCards.value|
  }

  /** On equal strength and comparable orderings the result is 0 exactly when all ranks
      agree, and otherwise the sign of the first rank difference. */
  lemma CompareTieBreak(x: Classification, y: Classification)
    requires x.strength == y.strength && Comparable(x, y)
    ensures var a, b := x.sortedCards.value, y.sortedCards.value;
      && Compare(x, y).Ok?
      && (Compare(x, y) == Ok(0) <==> RanksAgree(a, b, 0, |a|))
      && (Compare(x, y) == Ok(1) <==> exists k :: 0 <= k < |a| && FirstDifference(a, b, 0, k) && a[k].number > b[k].number)
      && (Compare(x, y) == Ok(-1) <==> exists k :: 0 <= k < |a| && FirstDifference(a, b, 0, k) && a[k].number < b[k].number)
  {
  }

  /** The loop on swapped arrays of equal length gives the opposite sign. */
  lemma {:induction false} CompareFromSwap(a: seq<Card>, b: seq<Card>, i: nat)
    requires |a| == |b| && i <= |a|
    ensures CompareFrom(a, Some(b), i).Ok? && CompareFrom(b, Some(a), i).Ok?
    ensures CompareFrom(b, Some(a), i).value == -CompareFrom(a, Some(b), i).value
    decreases |a| - i
  {
    if i < |a| && a[i].number == b[i].number {
      CompareFromSwap(a, b, i + 1);
    }
  }

  /** Swapping the operands negates the result. */
  lemma CompareAntisymmetric(x: Classification, y: Classification)
    requires Comparable(x, y)
    ensures Compare(x, y).Ok? && Compare(y, x).Ok?
    ensures Compare(y, x).value == -Compare(x, y).value
  {
    if x.strength == y.strength {
      CompareFromSwap(x.sortedCards.value, y.sortedCards.value, 0);
    }
  }

  /** A classification with sorted cards ties with itself. */
  lemma CompareReflexive(x: Classification)
    requires x.sortedCards.Some?
    ensures Compare(x, x) == Ok(0)
  {
  }

  /** The loop is transitive on arrays of equal length. */
  lemma {:induction false} CompareFromTransitive(a: seq<Card>, b: seq<Card>, c: seq<Card>, i: nat)
    requires |a| == |b| == |c| && i <= |a|
    requires CompareFrom(a, Some(b), i) == Ok(1) && CompareFrom(b, Some(c), i) == Ok(1)
    ensures CompareFrom(a, Some(c), i) == Ok(1)
    decreases |a| - i
  {
    if a[i].number == b[i].number && b[i].number == c[i].number {
      CompareFromTransitive(a, b, c, i + 1);
    }
  }

  /** Beating beats: if `x` beats `y` and `y` beats `z`, then `x` beats `z`. */
  lemma CompareTransitive(x: Classification, y: Classification, z: Classification)
    requires Comparable(x, y) && Comparable(y, z)
    requires Compare(x, y) == Ok(1) && Compare(y, z) == Ok(1)
    ensures Compare(x, z) == Ok(1)
  {
    if x.strength == y.strength == z.strength {
      CompareFromTransitive(x.sortedCards.value, y.sortedCards.value, z.sortedCards.value, 0);
    }
  }
}

=== FILE: grouping.dfy ===
/** `groupedCards.Where(g => <size test>).SelectMany(g => g)`: the cards of the rank
    groups whose size passes a test, group after group in order of first occurrence. */
module Grouping {
  import opened Cards
  import opened Hands

  /** The group-size tests the matchers use: `g.Count() > 1` and `g.Count() == size`. */
  datatype GroupFilter = Repeated | OfSize(size: nat)

  predicate Admits(f: GroupFilter, count: nat) {
    match f
    case Repeated => count > 1
    case OfSize(size) => count == size
  }

  /** The group of rank `k` when `f` admits its size, otherwise nothing. */
  function GroupIf(hand: seq<Card>, k: int, f: GroupFilter): seq<Card> {
    if Admits(f, Count(hand, k)) then WithNumber(hand, k) else []
  }

  /** The groups of `keys`, in key order, that `f` admits. */
  function Gather(keys: seq<int>, hand: seq<Card>, f: GroupFilter): seq<Card> {
    if |keys| == 0 then [] else GroupIf(hand, keys[0], f) + Gather(keys[1..], hand, f)
  }

  /** The ranks of `o` never go back to a rank that first occurs earlier in the hand: the
      groups of `o` are contiguous and in order of first occurrence. */
  predicate InFirstOccurrence(o: seq<Card>, hand: seq<Card>) {
    forall i, j :: 0 <= i < j < |o| ==>
      FirstIndex(Numbers(hand), o[i].number) <= FirstIndex(Numbers(hand), o[j].number)
  }

  /** The admitted rank groups of the hand, concatenated in order of first occurrence:
      each admitted rank keeps its whole group, in hand order, no other rank appears, and
      the groups follow one another in the order their ranks first occur in the hand. */
  function SelectGroups(hand: seq<Card>, f: GroupFilter): (r: seq<Card>)
    ensures forall n :: WithNumber(r, n) == GroupIf(hand, n, f)
    ensures InFirstOccurrence(r, hand)
  {
    var keys := Distinct(Numbers(hand));
    var r := Gather(keys, hand, f);
    assert forall n :: WithNumber(r, n) == GroupIf(hand, n, f) by {
      forall n ensures WithNumber(r, n) == GroupIf(hand, n, f) {
        GatherGroup(keys, hand, f, n);
        CountPositive(hand, n);
      }
    }
    DistinctFirstOccurrence(Numbers(hand));
    GatherOrdered(keys, hand, f);
    r
  }

  /** Every gathered card has one of the keys as its rank. */
  lemma {:induction false} GatherMembers(keys: seq<int>, hand: seq<Card>, f: GroupFilter, c: Card)
    requires c in Gather(keys, hand, f)
    ensures c.number in keys
  {
    var head, tail := GroupIf(hand, keys[0], f), Gather(keys[1..], hand, f);
    if c in head {
      assert c in WithNumber(hand, keys[0]);
    } else {
      GatherMembers(keys[1..], hand, f, c);
    }
  }

  /** Gathering keys listed in order of first occurrence keeps the cards in that order. */
  lemma {:induction false} GatherOrdered(keys: seq<int>, hand: seq<Card>, f: GroupFilter)
    requires forall a, b :: 0 <= a < b < |keys| ==>
      FirstIndex(Numbers(hand), keys[a]) < FirstIndex(Numbers(hand), keys[b])
    ensures InFirstOccurrence(Gather(keys, hand, f), hand)
  {
    if |keys| > 0 {
      var rest := keys[1..];
      assert forall a, b :: 0 <= a < b < |rest| ==> rest[a] == keys[a + 1] && rest[b] == keys[b + 1];
      GatherOrdered(rest, hand, f);
      var g := Gather(keys, hand, f);
      forall i, j | 0 <= i < j < |g|
        ensures FirstIndex(Numbers(hand), g[i].number) <= FirstIndex(Numbers(hand), g[j].number)
      {
        GatherPair(keys, hand, f, i, j);
      }
    }
  }

  /** One pair of positions in the gathered groups, given the order of the later groups. */
  lemma GatherPair(keys: seq<int>, hand: seq<Card>, f: GroupFilter, i: nat, j: nat)
    requires |keys| > 0
    requires forall a, b :: 0 <= a < b < |keys| ==>
      FirstIndex(Numbers(hand), keys[a]) < FirstIndex(Numbers(hand), keys[b])
    requires InFirstOccurrence(Gather(keys[1..], hand, f), hand)
    requires i < j < |Gather(keys, hand, f)|
    ensures var g := Gather(keys, hand, f);
      FirstIndex(Numbers(hand), g[i].number) <= FirstIndex(Numbers(hand), g[j].number)
  {
    var xs, rest := Numbers(hand), keys[1..];
    var head, tail := GroupIf(hand, keys[0], f), Gather(rest, hand, f);
    var g := head + tail;
    if j < |head| {
      assert g[i] == head[i] && g[j] == head[j];
      assert head[i] in WithNumber(hand, keys[0]) && head[j] in WithNumber(hand, keys[0]);
    } else if i < |head| {
      assert g[i] == head[i] && g[j] == tail[j - |head|];
      assert head[i] in WithNumber(hand, keys[0]);
      GatherMembers(rest, hand, f, g[j]);
      var b :| 0 <= b < |rest| && rest[b] == g[j].number;
      assert keys[b + 1] == rest[b];
    } else {
      assert g[i] == tail[i - |head|] && g[j] == tail[j - |head|];
    }
  }

  /** The cards of the admitted groups are cards of the hand whose group `f` admits. */
  lemma SelectGroupsMembers(hand: seq<Card>, f: GroupFilter, c: Card)
    requires c in SelectGroups(hand, f)
    ensures c in hand && Admits(f, Count(hand, c.number))
  {
    assert c in WithNumber(SelectGroups(hand, f), c.number);
  }

  /** Selecting rank `n` from the group of rank `k`. */
  lemma GroupIfByNumber(hand: seq<Card>, k: int, f: GroupFilter, n: int)
    ensures WithNumber(GroupIf(hand, k, f), n) == if k == n then GroupIf(hand, k, f) else []
  {
    if Admits(f, Count(hand, k)) {
      WithNumberTwice(hand, k, n);
    }
  }

  /** Gathering over distinct keys yields, for rank `n`, its whole group when `n` is a key
      the filter admits, and nothing otherwise. */
  lemma {:induction false} GatherGroup(keys: seq<int>, hand: seq<Card>, f: GroupFilter, n: int)
    requires NoDuplicates(keys)
    ensures WithNumber(Gather(keys, hand, f), n) == if n in keys then GroupIf(hand, n, f) else []
  {
    if |keys| > 0 {
      var k, rest := keys[0], keys[1..];
      var head, tail := GroupIf(hand, k, f), Gather(rest, hand, f);
      assert NoDuplicates(rest);
      GatherGroup(rest, hand, f, n);
      WithNumberAppend(head, tail, n);
      GroupIfByNumber(hand, k, f, n);
      if n == k {
        assert n !in rest;
        assert WithNumber(head, n) + [] == head;
      } else {
        assert n in keys <==> n in rest;
        assert [] + WithNumber(tail, n) == WithNumber(tail, n);
      }
    }
  }
}

=== FILE: hands.dfy ===
/** Views of a hand that the matchers group by: the ranks and suits of its cards, the
    distinct keys in order of first occurrence (the keys of LINQ's GroupBy), and the
    cards of one rank in hand order (one GroupBy group). */
module Hands {
  import opened Cards

  /** The rank of each card, in hand order. */
  function Numbers(hand: seq<Card>): (r: seq<int>)
    ensures |r| == |hand|
    ensures forall i :: 0 <= i < |hand| ==> r[i] == hand[i].number
  {
    seq(|hand|, i requires 0 <= i < |hand| => hand[i].number)
  }

  /** The suit of each card, in hand order. */
  function Colors(hand: seq<Card>): (r: seq<char>)
    ensures |r| == |hand|
    ensures forall i :: 0 <= i < |hand| ==> r[i] == hand[i].color
  {
    seq(|hand|, i requires 0 <= i < |hand| => hand[i].color)
  }

  predicate NoDuplicates<K(==)>(xs: seq<K>) {
    forall i, j :: 0 <= i < j < |xs| ==> xs[i] != xs[j]
  }

  /** The distinct elements of `xs` in order of first occurrence: the group keys GroupBy
      enumerates, so `|Distinct(..)|` is the `Count()` of a grouping. */
  function Distinct<K(==)>(xs: seq<K>): (r: seq<K>)
    ensures forall i :: 0 <= i < |xs| ==> xs[i] in r
    ensures forall i :: 0 <= i < |r| ==> r[i] in xs
    ensures NoDuplicates(r)
    ensures |r| <= |xs|
  {
    if |xs| == 0 then []
    else
      var init := xs[..|xs| - 1];
      var d := Distinct(init);
      assert xs == init + [xs[|xs| - 1]];
      if xs[|xs| - 1] in d then d else d + [xs[|xs| - 1]]
  }

  /** `xs` without any occurrence of `v`. */
  function Without(xs: seq<int>, v: int): (r: seq<int>)
    ensures forall x :: x in r <==> x in xs && x != v
    ensures |r| <= |xs| && (v in xs ==> |r| < |xs|)
  {
    if |xs| == 0 then []
    else (if xs[0] == v then [] else [xs[0]]) + Without(xs[1..], v)
  }

  /** A sequence holding `k` different values has at least `k` elements. */
  lemma {:induction false} MembersBound(xs: seq<int>, vals: seq<int>)
    requires NoDuplicates(vals)
    requires forall i :: 0 <= i < |vals| ==> vals[i] in xs
    ensures |xs| >= |vals|
    decreases |vals|
  {
    if |vals| > 0 {
      var v := vals[|vals| - 1];
      var init := vals[..|vals| - 1];
      assert forall i :: 0 <= i < |init| ==> init[i] == vals[i] && init[i] != v;
      MembersBound(Without(xs, v), init);
    }
  }

  /** Where `n` first occurs in `xs`, or `|xs|` when it does not occur. */
  function FirstIndex(xs: seq<int>, n: int): (i: nat)
    ensures i <= |xs|
    ensures i < |xs| ==> xs[i] == n
    ensures forall k :: 0 <= k < i ==> xs[k] != n
  {
    if |xs| == 0 then 0
    else if xs[0] == n then 0
    else
      var i := FirstIndex(xs[1..], n);
      assert forall k :: 1 <= k < i + 1 ==> xs[k] == xs[1..][k - 1];
      1 + i
  }

  /** An occurrence with no earlier occurrence is the first one. */
  lemma FirstIndexAt(xs: seq<int>, n: int, i: nat)
    requires i < |xs| && xs[i] == n
    requires forall k :: 0 <= k < i ==> xs[k] != n
    ensures FirstIndex(xs, n) == i
  {
  }

  /** The keys GroupBy enumerates come in order of first occurrence. */
  lemma {:induction false} DistinctFirstOccurrence(xs: seq<int>)
    ensures forall a, b :: 0 <= a < b < |Distinct(xs)| ==>
      FirstIndex(xs, Distinct(xs)[a]) < FirstIndex(xs, Distinct(xs)[b])
  {
    if |xs| > 0 {
      var init, last := xs[..|xs| - 1], xs[|xs| - 1];
      var d := Distinct(init);
      DistinctFirstOccurrence(init);
      assert xs == init + [last];
      forall v | v in init ensures FirstIndex(xs, v) == FirstIndex(init, v) {
        FirstIndexAt(xs, v, FirstIndex(init, v));
      }
      if last !in d {
        assert last !in init;
        FirstIndexAt(xs, last, |init|);
        var r := d + [last];
        forall a, b | 0 <= a < b < |r| ensures FirstIndex(xs, r[a]) < FirstIndex(xs, r[b]) {
          assert r[a] == d[a] && r[a] in init;
          if b < |d| {
            assert r[b] == d[b] && r[b] in init;
          }
        }
      } else {
        forall a, b | 0 <= a < b < |d| ensures FirstIndex(xs, d[a]) < FirstIndex(xs, d[b]) {
          assert d[a] in init && d[b] in init;
        }
      }
    }
  }

  /** The number of rank groups: `cards.GroupBy(x => x.Number).Count()`. Every card is
      in one group, so there are no more groups than cards, and none only for no cards. */
  function RankGroupCount(hand: seq<Card>): (n: nat)
    ensures n <= |hand|
    ensures n == 0 <==> |hand| == 0
  {
    var d := Distinct(Numbers(hand));
    assert |hand| > 0 ==> Numbers(hand)[0] in d;
    |d|
  }

  /** The number of suit groups: `cards.GroupBy(x => x.Color).Count()`, with the same
      bounds as the rank groups. */
  function ColorGroupCount(hand: seq<Card>): (n: nat)
    ensures n <= |hand|
    ensures n == 0 <==> |hand| == 0
  {
    var d := Distinct(Colors(hand));
    assert |hand| > 0 ==> Colors(hand)[0] in d;
    |d|
  }

  /** The cards of rank `n`, in hand order: the GroupBy group of key `n`. */
  function WithNumber(hand: seq<Card>, n: int): (r: seq<Card>)
    ensures |r| <= |hand|
    ensures forall c :: c in r <==> c in hand && c.number == n
  {
    if |hand| == 0 then []
    else (if hand[0].number == n then [hand[0]] else []) + WithNumber(hand[1..], n)
  }

  /** How many cards of rank `n` the hand holds. */
  function Count(hand: seq<Card>, n: int): nat {
    |WithNumber(hand, n)|
  }

  /** Some rank group has exactly `size` cards: `groupedCards.Any(g => g.Count() == size)`.
      Stated on ranks: a rank with `size` cards exists, and groups are never empty. */
  predicate AnyGroupOfSize(hand: seq<Card>, size: nat): (b: bool)
    ensures b ==> 0 < size <= |hand|
  {
    RankWitness(hand, size);
    exists i :: 0 <= i < |hand| && Count(hand, hand[i].number) == size
  }

  /** `AnyGroupOfSize` asks whether some rank has exactly `size` cards, whichever rank. */
  lemma AnyGroupOfSizeMeans(hand: seq<Card>, size: nat)
    ensures AnyGroupOfSize(hand, size) <==> size > 0 && exists n :: Count(hand, n) == size
  {
    RankWitness(hand, size);
  }

  /** A rank with cards has a card in the hand; a card's rank has cards. */
  lemma RankWitness(hand: seq<Card>, size: nat)
    ensures (exists n :: Count(hand, n) == size && size > 0) ==>
      exists i :: 0 <= i < |hand| && Count(hand, hand[i].number) == size
    ensures forall i :: 0 <= i < |hand| ==> Count(hand, hand[i].number) > 0
  {
    forall i | 0 <= i < |hand| ensures Count(hand, hand[i].number) > 0 {
      assert hand[i] in WithNumber(hand, hand[i].number);
    }
    if exists n :: Count(hand, n) == size && size > 0 {
      var n :| Count(hand, n) == size && size > 0;
      var c := WithNumber(hand, n)[0];
      assert c in WithNumber(hand, n);
      var i :| 0 <= i < |hand| && hand[i] == c;
      assert Count(hand, hand[i].number) == size;
    }
  }

  /** The hand is non-empty and all its cards share the suit of the first. */
  predicate SameColor(hand: seq<Card>) {
    |hand| > 0 && forall i :: 0 <= i < |hand| ==> hand[i].color == hand[0].color
  }

  /** Two cards of different suits make a hand of more than one suit. */
  lemma MixedSuits(hand: seq<Card>, i: nat, j: nat)
    requires i < |hand| && j < |hand| && hand[i].color != hand[j].color
    ensures !SameColor(hand)
  {
  }

  /** In a run of cards of one rank `k`, the group of rank `n` is the whole run or nothing. */
  lemma {:induction false} WithNumberUniform(run: seq<Card>, k: int, n: int)
    requires forall i :: 0 <= i < |run| ==> run[i].number == k
    ensures WithNumber(run, n) == if n == k then run else []
  {
    if |run| > 0 {
      WithNumberUniform(run[1..], k, n);
    }
  }

  /** Rank counts add up over a concatenation. */
  lemma CountAppend(a: seq<Card>, b: seq<Card>, n: int)
    ensures Count(a + b, n) == Count(a, n) + Count(b, n)
  {
    WithNumberAppend(a, b, n);
  }

  /** A run of cards of one rank `k` counts all its cards at rank `k` and none elsewhere. */
  lemma CountUniform(run: seq<Card>, k: int, n: int)
    requires forall i :: 0 <= i < |run| ==> run[i].number == k
    ensures Count(run, n) == if n == k then |run| else 0
  {
    WithNumberUniform(run, k, n);
  }

  /** Two runs of different single ranks can trade places without changing any rank group. */
  lemma SwapRuns(a: seq<Card>, b: seq<Card>, ka: int, kb: int, n: int)
    requires forall i :: 0 <= i < |a| ==> a[i].number == ka
    requires forall i :: 0 <= i < |b| ==> b[i].number == kb
    requires ka != kb
    ensures WithNumber(a + b, n) == WithNumber(b + a, n)
  {
    WithNumberAppend(a, b, n);
    WithNumberAppend(b, a, n);
    WithNumberUniform(a, ka, n);
    WithNumberUniform(b, kb, n);
    var ga, gb := WithNumber(a, n), WithNumber(b, n);
    if n == ka {
      assert gb == [];
      assert ga + gb == ga == gb + ga;
    } else {
      assert ga == [];
      assert ga + gb == gb == gb + ga;
    }
  }

  /** The group of rank `n` holds every card of that rank as often as the hand does,
      and no other card. */
  lemma {:induction false} WithNumberContents(hand: seq<Card>, n: int, c: Card)
    ensures multiset(WithNumber(hand, n))[c] == if c.number == n then multiset(hand)[c] else 0
  {
    if |hand| > 0 {
      WithNumberContents(hand[1..], n, c);
      assert hand == [hand[0]] + hand[1..];
    }
  }

  /** The rank groups of a concatenation are the concatenated rank groups: with
      `WithNumber([c], n)` being `[c]` or `[]`, this fixes the group's hand order. */
  lemma {:induction false} WithNumberAppend(a: seq<Card>, b: seq<Card>, n: int)
    ensures WithNumber(a + b, n) == WithNumber(a, n) + WithNumber(b, n)
  {
    if |a| > 0 {
      assert (a + b)[1..] == a[1..] + b;
      WithNumberAppend(a[1..], b, n);
    } else {
      assert a + b == b;
    }
  }

  /** Selecting rank `n` from the group of rank `k` keeps it whole or empties it. */
  lemma {:induction false} WithNumberTwice(hand: seq<Card>, k: int, n: int)
    ensures WithNumber(WithNumber(hand, k), n) == if k == n then WithNumber(hand, k) else []
  {
    if |hand| > 0 {
      var head := if hand[0].number == k then [hand[0]] else [];
      WithNumberAppend(head, WithNumber(hand[1..], k), n);
      WithNumberTwice(hand[1..], k, n);
      assert WithNumber(head, n) == if head != [] && k == n then head else [] by {
        if head != [] {
          assert head[1..] == [];
        }
      }
    }
  }

  /** A rank occurs in the hand exactly when its group is non-empty. */
  lemma CountPositive(hand: seq<Card>, n: int)
    ensures Count(hand, n) > 0 <==> n in Numbers(hand)
  {
    if n in Numbers(hand) {
      var i :| 0 <= i < |hand| && Numbers(hand)[i] == n;
      assert hand[i] in WithNumber(hand, n);
    }
    if Count(hand, n) > 0 {
      var c := WithNumber(hand, n)[0];
      assert c in hand && c.number == n;
      var i :| 0 <= i < |hand| && hand[i] == c;
      assert Numbers(hand)[i] == n;
    }
  }

  /** A sequence without duplicates is its own list of distinct keys. */
  lemma {:induction false} DistinctOfDistinct<K>(xs: seq<K>)
    requires NoDuplicates(xs)
    ensures Distinct(xs) == xs
  {
    if |xs| > 0 {
      var init := xs[..|xs| - 1];
      assert NoDuplicates(init);
      DistinctOfDistinct(init);
      assert xs == init + [xs[|xs| - 1]];
    }
  }

  /** A repeated element makes the list of distinct keys strictly shorter. */
  lemma {:induction false} DistinctShorter<K>(xs: seq<K>, i: nat, j: nat)
    requires i < j < |xs| && xs[i] == xs[j]
    ensures |Distinct(xs)| < |xs|
  {
    var init := xs[..|xs| - 1];
    if j == |xs| - 1 {
      assert xs[j] in init;
      assert xs[|xs| - 1] in Distinct(init);
    } else {
      DistinctShorter(init, i, j);
    }
  }

  /** The keys are distinct from one another exactly when the sequence has no repeat. */
  lemma DistinctCountFull<K>(xs: seq<K>)
    ensures |Distinct(xs)| == |xs| <==> NoDuplicates(xs)
  {
    if NoDuplicates(xs) {
      DistinctOfDistinct(xs);
    } else {
      var i, j :| 0 <= i < j < |xs| && xs[i] == xs[j];
      DistinctShorter(xs, i, j);
    }
  }

  /** One key exactly when the sequence is non-empty and constant. */
  lemma {:induction false} DistinctSingle<K>(xs: seq<K>)
    ensures |Distinct(xs)| == 1 <==> |xs| > 0 && forall i :: 0 <= i < |xs| ==> xs[i] == xs[0]
  {
    var d := Distinct(xs);
    if |d| == 1 {
      forall i | 0 <= i < |xs| ensures xs[i] == xs[0] {
        assert xs[i] in d && xs[0] in d;
      }
    }
    if |xs| > 0 && forall i :: 0 <= i < |xs| ==> xs[i] == xs[0] {
      DistinctConstant(xs);
    }
  }

  /** A non-empty constant sequence has its first element as its only key. */
  lemma {:induction false} DistinctConstant<K>(xs: seq<K>)
    requires |xs| > 0 && forall i :: 0 <= i < |xs| ==> xs[i] == xs[0]
    ensures Distinct(xs) == [xs[0]]
  {
    if |xs| > 1 {
      var init := xs[..|xs| - 1];
      DistinctConstant(init);
    }
  }

  /** One suit group exactly when all cards share one suit. */
  lemma ColorGroupSingle(hand: seq<Card>)
    ensures ColorGroupCount(hand) == 1 <==> SameColor(hand)
  {
    DistinctSingle(Colors(hand));
  }

  /** Fewer rank groups than cards exactly when two cards share a rank. */
  lemma RankGroupsFewer(hand: seq<Card>)
    ensures RankGroupCount(hand) < |hand| <==>
      exists i, j :: 0 <= i < j < |hand| && hand[i].number == hand[j].number
  {
    DistinctCountFull(Numbers(hand));
    if exists i, j :: 0 <= i < j < |hand| && hand[i].number == hand[j].number {
      var i, j :| 0 <= i < j < |hand| && hand[i].number == hand[j].number;
      assert Numbers(hand)[i] == Numbers(hand)[j];
    }
  }
}

=== FILE: matchers.dfy ===
/** The ten hand matchers. Each `Match` of the evaluator returns whether the hand is in
    its category and, as a side effect, sets the matcher's `SortedCards`; here each matcher
    is a pure function returning both, where `sortedCards` is what a freshly created
    matcher holds after the call (`None` for a null array). */
module Matchers {
  import opened Wrappers
  import opened Cards
  import opened Hands
  import opened Sorting
  import opened Grouping

  datatype MatchResult = MatchResult(matched: bool, sortedCards: Option<seq<Card>>)

  /** The ten matcher classes. */
  datatype Matcher =
    | RoyalFlush | StraightFlush | FourOfAKind | FullHouse | Flush
    | Straight | ThreeCards | TwoPairs | OnePair | HighCard

  /** A matcher that has matched a hand: its class, its `Strength` and its `SortedCards`. */
  datatype Classification = Classification(matcher: Matcher, strength: int, sortedCards: Option<seq<Card>>)

  /** Each matcher's fixed `Strength`. Straight flush is given 10, like royal flush. */
  function Strength(m: Matcher): (s: int)
    ensures 1 <= s <= 10 && s != 9
    ensures s == 10 <==> m == RoyalFlush || m == StraightFlush
  {
    match m
    case HighCard => 1
    case OnePair => 2
    case TwoPairs => 3
    case ThreeCards => 4
    case Straight => 5
    case Flush => 6
    case FullHouse => 7
    case FourOfAKind => 8
    case StraightFlush => 10
    case RoyalFlush => 10
  }

  /** `o` is the whole hand, highest rank first, cards of equal rank in hand order: the
      stable descending sort, which these facts determine (`SortDescendingUnique`). */
  ghost predicate SortedHand(o: seq<Card>, hand: seq<Card>) {
    Descending(o) && SameRankGroups(o, hand) && multiset(o) == multiset(hand)
  }

  /** `o` holds the hand's rank groups that `f` admits followed by its kickers (rank groups
      of one card): every such rank keeps its cards, in hand order, every other rank is
      dropped, no kicker comes before a grouped card, and the kickers descend. */
  ghost predicate GroupsThenKickers(o: seq<Card>, hand: seq<Card>, f: GroupFilter) {
    && (forall n :: (WithNumber(o, n) ==
          if Admits(f, Count(hand, n)) || Count(hand, n) == 1 then WithNumber(hand, n) else []))
    && (forall i, j :: 0 <= i < j < |o| && Count(hand, o[i].number) == 1 ==>
          Count(hand, o[j].number) == 1 && o[i].number >= o[j].number)
  }

  /** The grouped cards of `o` (those not alone in their rank) come in order of first
      occurrence in the hand, each rank's group in one block. */
  predicate GroupsInFirstOccurrence(o: seq<Card>, hand: seq<Card>) {
    forall i, j :: 0 <= i < j < |o| && Count(hand, o[j].number) != 1 ==>
      FirstIndex(Numbers(hand), o[i].number) <= FirstIndex(Numbers(hand), o[j].number)
  }

  /** Ranks never rise along `o`, except from a repeated rank of the hand to a kicker. */
  predicate GroupsDescending(o: seq<Card>, hand: seq<Card>) {
    forall i, j :: 0 <= i < j < |o| ==>
      o[i].number >= o[j].number || (Count(hand, o[i].number) > 1 && Count(hand, o[j].number) == 1)
  }

  /** The kickers, highest first: `Where(g => g.Count() == 1).SelectMany(..).OrderByDescending(..)`. */
  function Kickers(hand: seq<Card>): (r: seq<Card>)
    ensures Descending(r)
    ensures forall n :: WithNumber(r, n) == GroupIf(hand, n, OfSize(1))
  {
    SortDescending(SelectGroups(hand, OfSize(1)))
  }

  /** A card of a sequence whose rank groups are the admitted groups of the hand has a
      group size the filter admits. */
  lemma AdmittedCard(head: seq<Card>, hand: seq<Card>, f: GroupFilter, c: Card)
    requires forall n :: WithNumber(head, n) == GroupIf(hand, n, f)
    requires c in head
    ensures Admits(f, Count(hand, c.number))
  {
    assert c in WithNumber(head, c.number);
  }

  /** The rank groups of a head followed by the kickers. */
  lemma HeadThenKickersGroups(head: seq<Card>, hand: seq<Card>, f: GroupFilter)
    requires !Admits(f, 1)
    requires forall n :: WithNumber(head, n) == GroupIf(hand, n, f)
    ensures forall n :: (WithNumber(head + Kickers(hand), n) ==
      if Admits(f, Count(hand, n)) || Count(hand, n) == 1 then WithNumber(hand, n) else [])
  {
    forall n ensures WithNumber(head + Kickers(hand), n) ==
      (if Admits(f, Count(hand, n)) || Count(hand, n) == 1 then WithNumber(hand, n) else [])
    {
      WithNumberAppend(head, Kickers(hand), n);
    }
  }

  /** In a head followed by the kickers, a kicker is followed only by lower kickers. */
  lemma HeadThenKickersLayout(head: seq<Card>, hand: seq<Card>, f: GroupFilter, i: int, j: int)
    requires !Admits(f, 1)
    requires forall n :: WithNumber(head, n) == GroupIf(hand, n, f)
    requires 0 <= i < j < |head + Kickers(hand)| && Count(hand, (head + Kickers(hand))[i].number) == 1
    ensures Count(hand, (head + Kickers(hand))[j].number) == 1
    ensures (head + Kickers(hand))[i].number >= (head + Kickers(hand))[j].number
  {
    var k := Kickers(hand);
    var o := head + k;
    if i < |head| {
      AdmittedCard(head, hand, f, o[i]);
    } else {
      assert o[i] == k[i - |head|] && o[j] == k[j - |head|];
      AdmittedCard(k, hand, OfSize(1), o[j]);
    }
  }

  /** A head whose rank groups are the admitted ones, then the kickers, is laid out as
      `GroupsThenKickers` says, provided the filter never admits a single card. */
  lemma HeadThenKickers(head: seq<Card>, hand: seq<Card>, f: GroupFilter)
    requires !Admits(f, 1)
    requires forall n :: WithNumber(head, n) == GroupIf(hand, n, f)
    ensures GroupsThenKickers(head + Kickers(hand), hand, f)
  {
    HeadThenKickersGroups(head, hand, f);
    var o := head + Kickers(hand);
    forall i, j | 0 <= i < j < |o| && Count(hand, o[i].number) == 1
      ensures Count(hand, o[j].number) == 1 && o[i].number >= o[j].number
    {
      HeadThenKickersLayout(head, hand, f, i, j);
    }
  }

  /** A head in order of first occurrence, then the kickers: the grouped cards are all in
      the head, so they keep its order. */
  lemma HeadThenKickersOrder(head: seq<Card>, hand: seq<Card>, f: GroupFilter)
    requires !Admits(f, 1)
    requires forall n :: WithNumber(head, n) == GroupIf(hand, n, f)
    requires InFirstOccurrence(head, hand)
    ensures GroupsInFirstOccurrence(head + Kickers(hand), hand)
  {
    var k := Kickers(hand);
    var o := head + k;
    forall i, j | 0 <= i < j < |o| && Count(hand, o[j].number) != 1
      ensures FirstIndex(Numbers(hand), o[i].number) <= FirstIndex(Numbers(hand), o[j].number)
    {
      if j >= |head| {
        assert o[j] == k[j - |head|];
        AdmittedCard(k, hand, OfSize(1), o[j]);
      }
      assert o[i] == head[i] && o[j] == head[j];
    }
  }

  /** When the hand has an admitted group of two or more cards, such a group leads the
      ordering: the first card is never a kicker. */
  lemma LeadingCardGrouped(o: seq<Card>, hand: seq<Card>, f: GroupFilter, c: Card)
    requires GroupsThenKickers(o, hand, f)
    requires c in hand && Admits(f, Count(hand, c.number)) && Count(hand, c.number) != 1
    ensures |o| > 0 && Admits(f, Count(hand, o[0].number)) && Count(hand, o[0].number) != 1
  {
    assert c in WithNumber(hand, c.number);
    assert c in WithNumber(o, c.number);
    var j :| 0 <= j < |o| && o[j] == c;
    assert o[0] in WithNumber(o, o[0].number);
  }

  /** With a descending head of repeated ranks before the kickers, ranks only fall, except
      where a repeated rank is followed by a kicker. */
  lemma SortedHeadThenKickers(head: seq<Card>, hand: seq<Card>)
    requires Descending(head)
    requires forall n :: WithNumber(head, n) == GroupIf(hand, n, Repeated)
    ensures GroupsDescending(head + Kickers(hand), hand)
  {
    var k := Kickers(hand);
    var o := head + k;
    forall i, j | 0 <= i < j < |o|
      ensures o[i].number >= o[j].number || (Count(hand, o[i].number) > 1 && Count(hand, o[j].number) == 1)
    {
      if j < |head| {
        assert o[i] == head[i] && o[j] == head[j];
      } else if i < |head| {
        AdmittedCard(head, hand, Repeated, o[i]);
        assert o[j] == k[j - |head|];
        AdmittedCard(k, hand, OfSize(1), o[j]);
      } else {
        assert o[i] == k[i - |head|] && o[j] == k[j - |head|];
      }
    }
  }

  /** `HighCardMatcher`: always matches; the whole hand, highest first. */
  function HighCardMatch(hand: seq<Card>): (r: MatchResult)
    ensures r.matched && r.sortedCards.Some?
    ensures SortedHand(r.sortedCards.value, hand)
  {
    MatchResult(true, Some(SortDescending(hand)))
  }

  /** `OnePairMatcher`: fewer than five rank groups. The repeated ranks come first, group
      by group in order of first occurrence, then the kickers, highest first. */
  function OnePairMatch(hand: seq<Card>): (r: MatchResult)
    ensures r.matched <==> RankGroupCount(hand) < 5
    ensures r.sortedCards.Some? <==> r.matched
    ensures r.matched ==> GroupsThenKickers(r.sortedCards.value, hand, Repeated)
    ensures r.matched ==> GroupsInFirstOccurrence(r.sortedCards.value, hand)
    ensures r.matched ==> multiset(r.sortedCards.value) == multiset(hand)
  {
    if RankGroupCount(hand) < 5 then
      var o := SelectGroups(hand, Repeated) + Kickers(hand);
      HeadThenKickers(SelectGroups(hand, Repeated), hand, Repeated);
      HeadThenKickersOrder(SelectGroups(hand, Repeated), hand, Repeated);
      EveryRankKept(o, hand, Repeated);
      MatchResult(true, Some(o))
    else
      MatchResult(false, None)
  }

  /** `TwoPairsMatcher`: fewer than four rank groups. The cards of repeated ranks come
      first, highest first, then the kickers, highest first. */
  function TwoPairsMatch(hand: seq<Card>): (r: MatchResult)
    ensures r.matched <==> RankGroupCount(hand) < 4
    ensures r.sortedCards.Some? <==> r.matched
    ensures r.matched ==> GroupsThenKickers(r.sortedCards.value, hand, Repeated)
    ensures r.matched ==> multiset(r.sortedCards.value) == multiset(hand)
    ensures r.matched ==> GroupsDescending(r.sortedCards.value, hand)
  {
    if RankGroupCount(hand) < 4 then
      var head := SortDescending(SelectGroups(hand, Repeated));
      var o := head + Kickers(hand);
      HeadThenKickers(head, hand, Repeated);
      EveryRankKept(o, hand, Repeated);
      SortedHeadThenKickers(head, hand);
      MatchResult(true, Some(o))
    else
      MatchResult(false, None)
  }

  /** An arrangement of the hand with its grouped cards in order of first occurrence leads
      with the rank of the first card dealt, when that card is paired. */
  lemma FirstDealtLeads(o: seq<Card>, hand: seq<Card>)
    requires GroupsInFirstOccurrence(o, hand) && multiset(o) == multiset(hand)
    requires |hand| > 0 && Count(hand, hand[0].number) > 1
    ensures |o| > 0 && o[0].number == hand[0].number
  {
    var xs := Numbers(hand);
    assert hand[0] in multiset(o);
    var j :| 0 <= j < |o| && o[j] == hand[0];
    FirstIndexAt(xs, hand[0].number, 0);
    if j > 0 {
      assert FirstIndex(xs, o[0].number) <= FirstIndex(xs, o[j].number);
    }
  }

  /** An arrangement of the hand whose ranks only fall, except from a repeated rank to a
      kicker, leads with the highest repeated rank. */
  lemma HighestPairLeads(o: seq<Card>, hand: seq<Card>, c: Card)
    requires GroupsThenKickers(o, hand, Repeated) && GroupsDescending(o, hand)
    requires multiset(o) == multiset(hand)
    requires c in hand && Count(hand, c.number) > 1
    requires forall d :: d in hand && Count(hand, d.number) > 1 ==> d.number <= c.number
    ensures |o| > 0 && o[0].number == c.number
  {
    assert c in multiset(o);
    var j :| 0 <= j < |o| && o[j] == c;
    LeadingCardGrouped(o, hand, Repeated, c);
    assert o[0] in multiset(hand);
    assert o[0].number <= c.number;
  }

  /** When the first card dealt is paired, the one pair matcher leads with its rank,
      whatever higher pair the hand holds. */
  lemma OnePairLeader(hand: seq<Card>)
    requires OnePairMatch(hand).matched
    requires |hand| > 0 && Count(hand, hand[0].number) > 1
    ensures OnePairMatch(hand).sortedCards.value[0].number == hand[0].number
  {
    FirstDealtLeads(OnePairMatch(hand).sortedCards.value, hand);
  }

  /** When `c` holds the highest rank that is paired, the two pairs matcher leads with it. */
  lemma TwoPairsLeader(hand: seq<Card>, c: Card)
    requires TwoPairsMatch(hand).matched
    requires c in hand && Count(hand, c.number) > 1
    requires forall d :: d in hand && Count(hand, d.number) > 1 ==> d.number <= c.number
    ensures TwoPairsMatch(hand).sortedCards.value[0].number == c.number
  {
    HighestPairLeads(TwoPairsMatch(hand).sortedCards.value, hand, c);
  }

  /** `ThreeCardsMatcher`: some rank occurs exactly three times. The three cards come
      first, then the kickers, highest first; a pair beside the three is dropped. */
  function ThreeCardsMatch(hand: seq<Card>): (r: MatchResult)
    ensures r.matched <==> AnyGroupOfSize(hand, 3)
    ensures r.sortedCards.Some? <==> r.matched
    ensures r.matched ==> GroupsThenKickers(r.sortedCards.value, hand, OfSize(3))
    ensures r.matched ==> GroupsInFirstOccurrence(r.sortedCards.value, hand)
  {
    if AnyGroupOfSize(hand, 3) then
      HeadThenKickers(SelectGroups(hand, OfSize(3)), hand, OfSize(3));
      HeadThenKickersOrder(SelectGroups(hand, OfSize(3)), hand, OfSize(3));
      MatchResult(true, Some(SelectGroups(hand, OfSize(3)) + Kickers(hand)))
    else
      MatchResult(false, None)
  }

  /** `StraightMatcher`'s loop: walking from position `i`, each card's rank is one less
      than the next card's rank; the last card is never visited. */
  function RunFrom(sorted: seq<Card>, i: nat): (r: bool)
    requires 1 <= i
    ensures r <==> forall k :: i <= k < |sorted| - 1 ==> sorted[k - 1].number == sorted[k].number - 1
    decreases |sorted| - i
  {
    if i >= |sorted| - 1 then true
    else if sorted[i - 1].number != sorted[i].number - 1 then false
    else RunFrom(sorted, i + 1)
  }

  /** `StraightMatcher`: sorts the hand highest first, then asks every card to be one
      rank BELOW the next, which a descending order never allows; so the matcher succeeds
      only on hands of one or two cards. The sorted hand is kept even on failure. An empty
      hand makes the matcher read past the end of the array. */
  function StraightMatch(hand: seq<Card>): (r: MatchResult)
    requires |hand| > 0
    ensures r.matched <==> |hand| <= 2
    ensures r.sortedCards.Some? && SortedHand(r.sortedCards.value, hand)
  {
    var sorted := SortDescending(hand);
    MatchResult(RunFrom(sorted, 1), Some(sorted))
  }

  /** `FlushMatcher`: one suit group. The whole hand, highest first. */
  function FlushMatch(hand: seq<Card>): (r: MatchResult)
    ensures r.matched <==> SameColor(hand)
    ensures r.sortedCards.Some? <==> r.matched
    ensures r.matched ==> SortedHand(r.sortedCards.value, hand)
  {
    ColorGroupSingle(hand);
    if ColorGroupCount(hand) == 1 then MatchResult(true, Some(SortDescending(hand)))
    else MatchResult(false, None)
  }

  /** `FullHouseMatcher`: exactly two rank groups and none of a single card. The whole
      hand, highest first, so a higher pair precedes a lower three. */
  function FullHouseMatch(hand: seq<Card>): (r: MatchResult)
    ensures r.matched <==> RankGroupCount(hand) == 2 && !AnyGroupOfSize(hand, 1)
    ensures r.sortedCards.Some? <==> r.matched
    ensures r.matched ==> SortedHand(r.sortedCards.value, hand)
  {
    if RankGroupCount(hand) == 2 && !AnyGroupOfSize(hand, 1) then MatchResult(true, Some(SortDescending(hand)))
    else MatchResult(false, None)
  }

  /** `FourOfAKindMatcher`: some rank occurs exactly four times. The four cards, then the
      kickers, highest first. */
  function FourOfAKindMatch(hand: seq<Card>): (r: MatchResult)
    ensures r.matched <==> AnyGroupOfSize(hand, 4)
    ensures r.sortedCards.Some? <==> r.matched
    ensures r.matched ==> GroupsThenKickers(r.sortedCards.value, hand, OfSize(4))
    ensures r.matched ==> GroupsInFirstOccurrence(r.sortedCards.value, hand)
  {
    if AnyGroupOfSize(hand, 4) then
      HeadThenKickers(SelectGroups(hand, OfSize(4)), hand, OfSize(4));
      HeadThenKickersOrder(SelectGroups(hand, OfSize(4)), hand, OfSize(4));
      MatchResult(true, Some(SelectGroups(hand, OfSize(4)) + Kickers(hand)))
    else
      MatchResult(false, None)
  }

  /** `StraightFlushMatcher`: one suit group, whatever the ranks. Its `SortedCards` is
      copied from an inner straight matcher that is never run, so it stays null. */
  function StraightFlushMatch(hand: seq<Card>): (r: MatchResult)
    ensures r.matched <==> SameColor(hand)
    ensures r.sortedCards.None?
  {
    ColorGroupSingle(hand);
    MatchResult(ColorGroupCount(hand) == 1, None)
  }

  /** `RoyalFlushMatcher`: runs its own straight flush matcher and, only if that succeeds,
      its own straight matcher; it matches when both do and then takes the straight
      matcher's sorted hand. So only one- and two-card single-suit hands match. */
  function RoyalFlushMatch(hand: seq<Card>): (r: MatchResult)
    ensures r.matched <==> SameColor(hand) && |hand| <= 2
    ensures r.sortedCards.Some? <==> r.matched
    ensures r.matched ==> SortedHand(r.sortedCards.value, hand)
  {
    if !StraightFlushMatch(hand).matched then MatchResult(false, None)
    else
      var straight := StraightMatch(hand);
      if straight.matched then MatchResult(true, straight.sortedCards) else MatchResult(false, None)
  }

  /** `Match` of matcher `m`: it accepts the hands `Accepts` describes. Only the straight
      matcher needs a card to look at; it keeps its sorted cards even when it rejects, and
      the straight flush matcher never has any. */
  function Match(m: Matcher, hand: seq<Card>): (r: MatchResult)
    requires m == Straight ==> |hand| > 0
    ensures r.matched <==> Accepts(m, hand)
    ensures r.sortedCards.None? <==> m == StraightFlush || (!r.matched && m != Straight)
  {
    match m
    case RoyalFlush => RoyalFlushMatch(hand)
    case StraightFlush => StraightFlushMatch(hand)
    case FourOfAKind => FourOfAKindMatch(hand)
    case FullHouse => FullHouseMatch(hand)
    case Flush => FlushMatch(hand)
    case Straight => StraightMatch(hand)
    case ThreeCards => ThreeCardsMatch(hand)
    case TwoPairs => TwoPairsMatch(hand)
    case OnePair => OnePairMatch(hand)
    case HighCard => HighCardMatch(hand)
  }

  /** Which hands each matcher accepts, stated directly on the rank and suit groups. */
  predicate Accepts(m: Matcher, hand: seq<Card>) {
    match m
    case RoyalFlush => SameColor(hand) && |hand| <= 2
    case StraightFlush => SameColor(hand)
    case FourOfAKind => AnyGroupOfSize(hand, 4)
    case FullHouse => RankGroupCount(hand) == 2 && !AnyGroupOfSize(hand, 1)
    case Flush => SameColor(hand)
    case Straight => |hand| <= 2
    case ThreeCards => AnyGroupOfSize(hand, 3)
    case TwoPairs => RankGroupCount(hand) < 4
    case OnePair => RankGroupCount(hand) < 5
    case HighCard => true
  }

  /** An arrangement that keeps the admitted rank groups and the kickers is a permutation
      of the hand when every rank of the hand is admitted or held by at most one card. */
  lemma EveryRankKept(o: seq<Card>, hand: seq<Card>, f: GroupFilter)
    requires forall n :: (WithNumber(o, n) ==
      if Admits(f, Count(hand, n)) || Count(hand, n) == 1 then WithNumber(hand, n) else [])
    requires forall i :: 0 <= i < |hand| ==>
      Admits(f, Count(hand, hand[i].number)) || Count(hand, hand[i].number) <= 1
    ensures multiset(o) == multiset(hand)
  {
    forall n ensures WithNumber(o, n) == WithNumber(hand, n) {
      if Count(hand, n) > 0 {
        var c := WithNumber(hand, n)[0];
        assert c in WithNumber(hand, n);
        var i :| 0 <= i < |hand| && hand[i] == c;
        assert hand[i].number == n;
      } else {
        assert WithNumber(hand, n) == [];
      }
    }
    SameGroupsPermutation(o, hand);
  }
}

=== FILE: pipeline.dfy ===
/** The matcher list of `Main` and `matchers.First(m => m.Match(hand))`: the first matcher,
    in strongest-first order, that accepts the hand classifies it. */
module Pipeline {
  import opened Wrappers
  import opened Cards
  import opened Hands
  import opened Matchers
  import opened Comparer

  /** The matchers in the order `Main` lists them. */
  const MatcherOrder: seq<Matcher> :=
    [RoyalFlush, StraightFlush, FourOfAKind, FullHouse, Flush, Straight, ThreeCards, TwoPairs, OnePair, HighCard]

  /** Where a matcher stands in `MatcherOrder`. */
  function Position(m: Matcher): (p: nat)
    ensures p < |MatcherOrder| && MatcherOrder[p] == m
  {
    match m
    case RoyalFlush => 0
    case StraightFlush => 1
    case FourOfAKind => 2
    case FullHouse => 3
    case Flush => 4
    case Straight => 5
    case ThreeCards => 6
    case TwoPairs => 7
    case OnePair => 8
    case HighCard => 9
  }

  /** `Position` inverts `MatcherOrder`: every matcher is listed once. */
  lemma PositionInOrder(i: nat)
    requires i < |MatcherOrder|
    ensures Position(MatcherOrder[i]) == i
  {
    if i == 0 {} else if i == 1 {} else if i == 2 {} else if i == 3 {} else if i == 4 {}
    else if i == 5 {} else if i == 6 {} else if i == 7 {} else if i == 8 {} else {}
  }

  /** `First` over the matchers' verdicts: the position of the first `true`, or the
      length where `First` would throw because there is none. */
  function FirstTrue(verdicts: seq<bool>): (i: nat)
    ensures i <= |verdicts|
    ensures i < |verdicts| ==> verdicts[i]
    ensures forall j :: 0 <= j < i ==> !verdicts[j]
  {
    if |verdicts| == 0 then 0
    else if verdicts[0] then 0
    else
      var i := FirstTrue(verdicts[1..]);
      assert forall j :: 1 <= j < i + 1 ==> verdicts[j] == verdicts[1..][j - 1];
      1 + i
  }

  /** The classification `Main` gives a hand: `matchers.First(m => m.Match(hand))`, the
      matcher that accepts it and that no earlier matcher of `MatcherOrder` pre-empts, with
      its strength and sorted cards. Never missing, since the high card matcher, last in
      line, accepts every hand. */
  function Classify(hand: seq<Card>): (c: Classification)
    requires |hand| > 0
    ensures Accepts(c.matcher, hand)
    ensures forall m :: Position(m) < Position(c.matcher) ==> !Accepts(m, hand)
    ensures c.strength == Strength(c.matcher)
    ensures c.sortedCards == Match(c.matcher, hand).sortedCards
  {
    var verdicts := seq(|MatcherOrder|, k requires 0 <= k < |MatcherOrder| => Match(MatcherOrder[k], hand).matched);
    var i := FirstTrue(verdicts);
    assert i < |MatcherOrder| by {
      assert verdicts[9];
    }
    var m := MatcherOrder[i];
    PositionInOrder(i);
    assert forall m' :: Position(m') < i ==> !Accepts(m', hand) by {
      forall m' | Position(m') < i ensures !Accepts(m', hand) {
        assert MatcherOrder[Position(m')] == m';
        assert !verdicts[Position(m')];
      }
    }
    Classification(m, Strength(m), Match(m, hand).sortedCards)
  }

  /** Both hands classified and compared, left against right: 1 when the left hand wins.
      This is the comparison `Main` would make if each hand had matchers of its own; see
      the notes on shared matchers. */
  function Showdown(left: seq<Card>, right: seq<Card>): (r: Result<int, Fault>)
    requires |left| > 0 && |right| > 0
    ensures Classify(left).strength > Classify(right).strength ==> r == Ok(1)
    ensures Classify(left).strength < Classify(right).strength ==> r == Ok(-1)
  {
    Compare(Classify(left), Classify(right))
  }

  /** What `Main` computes from the two hands (its lines 30-34). One list of matcher objects
      serves both hands, and a matcher object keeps the sorted cards of the last hand it was
      run on. When both hands land on the same matcher, `Compare` is handed that one object
      twice, holding the right hand's cards. When they land on different matchers, the left
      matcher still holds what the left hand gave it: the right hand's pass either stopped
      before reaching it, or ran it and saw it reject; only the straight matcher overwrites
      its cards on rejection, and then its strength, 5, differs from that of the later matcher
      that took the right hand, so `Compare` decides on strength. Either way `Compare` sees
      the cards separate matchers would hold, whether or not it reads them. */
  function MainVerdict(left: seq<Card>, right: seq<Card>): (r: Result<int, Fault>)
    requires |left| > 0 && |right| > 0
    ensures Classify(left).matcher != Classify(right).matcher ==> r == Showdown(left, right)
    ensures Classify(left).matcher == Classify(right).matcher ==>
      r == if Classify(right).sortedCards.Some? then Ok(0) else Err(NullReference)
  {
    var l, shared := Classify(left), Classify(right);
    if l.matcher == shared.matcher then
      assert shared.sortedCards.Some? ==> CompareFrom(shared.sortedCards.value, shared.sortedCards, 0) == Ok(0) by {
        if shared.sortedCards.Some? {
          CompareReflexive(shared);
        }
      }
      Compare(shared, shared)
    else
      Compare(l, shared)
  }

  /** Every matcher but the straight flush matcher leaves sorted cards when it classifies a hand. */
  lemma ClassifySortedCards(hand: seq<Card>)
    requires |hand| > 0
    ensures Classify(hand).sortedCards.None? <==> Classify(hand).matcher == StraightFlush
  {
    var m := Classify(hand).matcher;
    match m
    case RoyalFlush =>
    case StraightFlush =>
    case FourOfAKind =>
    case FullHouse =>
    case Flush =>
    case Straight =>
    case ThreeCards =>
    case TwoPairs =>
    case OnePair =>
    case HighCard =>
  }

  /** Under `Main`'s shared matchers two hands of the same category never produce a winner:
      the verdict is a draw, or a null fault for two single-suit hands. */
  lemma SameCategoryNoWinner(left: seq<Card>, right: seq<Card>)
    requires |left| > 0 && |right| > 0
    requires Classify(left).matcher == Classify(right).matcher
    ensures MainVerdict(left, right) == Ok(0) <==> Classify(right).matcher != StraightFlush
    ensures MainVerdict(left, right) != Ok(0) ==> MainVerdict(left, right) == Err(NullReference)
  {
    ClassifySortedCards(right);
  }

  /** Strengths never increase along `MatcherOrder`; the only tie is the two flush-suit
      matchers at its head. */
  lemma StrengthFollowsOrder(a: Matcher, b: Matcher)
    requires Position(a) <= Position(b)
    ensures Strength(b) <= Strength(a)
    ensures Strength(a) == Strength(b) <==> a == b || (a == RoyalFlush && b == StraightFlush)
  {
  }

  /** The chosen matcher is the strongest that accepts the hand. */
  lemma ClassifyStrongest(hand: seq<Card>, m: Matcher)
    requires |hand| > 0
    requires Accepts(m, hand)
    ensures Strength(m) <= Classify(hand).strength
  {
    var c := Classify(hand);
    assert Position(c.matcher) <= Position(m);
    StrengthFollowsOrder(c.matcher, m);
  }

  /** A matcher that accepts the hand, with every earlier matcher rejecting it, is the one chosen. */
  lemma ClassifyIs(hand: seq<Card>, m: Matcher)
    requires |hand| > 0 && Accepts(m, hand)
    requires forall m' :: Position(m') < Position(m) ==> !Accepts(m', hand)
    ensures Classify(hand).matcher == m
  {
    var c := Classify(hand).matcher;
    assert Position(c) == Position(m);
    assert MatcherOrder[Position(c)] == c && MatcherOrder[Position(m)] == m;
  }

  /** A single-suit hand is accepted by the straight flush matcher, which stands before the
      flush matcher, so the flush matcher never classifies a hand. */
  lemma FlushShadowed(hand: seq<Card>)
    requires |hand| > 0
    ensures Classify(hand).matcher != Flush
  {
    if SameColor(hand) {
      assert Accepts(StraightFlush, hand);
    } else {
      assert !Accepts(Flush, hand);
    }
  }

  /** From three cards on, the straight and royal flush matchers never classify a hand. */
  lemma StraightAndRoyalUnreachable(hand: seq<Card>)
    requires |hand| >= 3
    ensures Classify(hand).matcher != Straight
    ensures Classify(hand).matcher != RoyalFlush
  {
    assert !Accepts(Straight, hand) && !Accepts(RoyalFlush, hand);
  }

  /** From three cards on, a single-suit hand, whatever its ranks, is a straight flush of
      strength 10 with null sorted cards. */
  lemma SingleSuitIsStraightFlush(hand: seq<Card>)
    requires |hand| >= 3 && SameColor(hand)
    ensures Classify(hand) == Classification(StraightFlush, 10, None)
  {
    assert Accepts(StraightFlush, hand) && !Accepts(RoyalFlush, hand);
    assert Classify(hand).matcher == StraightFlush;
  }

  /** A hand gets strength 10 exactly when all its cards share one suit. */
  lemma StrengthTenIffSingleSuit(hand: seq<Card>)
    requires |hand| > 0
    ensures Classify(hand).strength == 10 <==> SameColor(hand)
  {
    if SameColor(hand) {
      assert Accepts(StraightFlush, hand);
    } else {
      assert !Accepts(RoyalFlush, hand) && !Accepts(StraightFlush, hand);
    }
  }

  /** Two single-suit hands of three or more cards make the comparison read a null array. */
  lemma TwoSingleSuitHandsFault(left: seq<Card>, right: seq<Card>)
    requires |left| >= 3 && SameColor(left)
    requires |right| >= 3 && SameColor(right)
    ensures Showdown(left, right) == Err(NullReference)
  {
    SingleSuitIsStraightFlush(left);
    SingleSuitIsStraightFlush(right);
  }
}

=== FILE: scenarios.dfy ===
/** Concrete hands and what the model's lemmas prove about them: the sample input `Main`
    hard-codes, and hands at the edges of the categories. */
module Scenarios {
  import opened Wrappers
  import opened Cards
  import opened Hands
  import opened Sorting
  import opened Grouping
  import opened Matchers
  import opened Comparer
  import opened Pipeline
  import opened Shapes

  /** The left hand of the sample input, "3H 6H KH 2H 4H". */
  const SampleLeft: seq<Card> := [Card('H', 3), Card('H', 6), Card('H', 13), Card('H', 2), Card('H', 4)]

  /** The right hand of the sample input, "2D 7H 7H KS JH". */
  const SampleRight: seq<Card> := [Card('D', 2), Card('H', 7), Card('H', 7), Card('S', 13), Card('H', 11)]

  /** The sample tokens parse to the sample hands. */
  lemma SampleParses()
    ensures ParseCard("3H") == Ok(SampleLeft[0]) && ParseCard("6H") == Ok(SampleLeft[1])
    ensures ParseCard("KH") == Ok(SampleLeft[2]) && ParseCard("2H") == Ok(SampleLeft[3])
    ensures ParseCard("4H") == Ok(SampleLeft[4])
    ensures ParseCard("2D") == Ok(SampleRight[0]) && ParseCard("7H") == Ok(SampleRight[1])
    ensures ParseCard("7H") == Ok(SampleRight[2]) && ParseCard("KS") == Ok(SampleRight[3])
    ensures ParseCard("JH") == Ok(SampleRight[4])
  {
  }

  /** The right sample hand has four rank groups. */
  lemma SampleRightGroupCount()
    ensures RankGroupCount(SampleRight) == 4
  {
    var r := SampleRight;
    var d := Distinct(Numbers(r));
    assert Numbers(r)[0] == 2 && Numbers(r)[1] == 7 && Numbers(r)[3] == 13 && Numbers(r)[4] == 11;
    MembersBound(d, [2, 7, 13, 11]);
    RankGroupsFewer(r);
    assert r[1].number == r[2].number;
  }

  /** The right sample hand as runs of one rank: a two, two sevens, a king and a jack. */
  lemma SampleRightRuns(n: int)
    ensures Count(SampleRight, n) ==
      Count([Card('D', 2)], n) + Count([Card('H', 7), Card('H', 7)], n) + Count([Card('S', 13)], n) + Count([Card('H', 11)], n)
  {
    var two, sevens, king, jack := [Card('D', 2)], [Card('H', 7), Card('H', 7)], [Card('S', 13)], [Card('H', 11)];
    assert SampleRight == two + sevens + king + jack;
    CountAppend(two + sevens + king, jack, n);
    CountAppend(two + sevens, king, n);
    CountAppend(two, sevens, n);
  }

  /** The rank groups of the right sample hand: a pair of sevens and three single cards. */
  lemma SampleRightCounts(n: int)
    ensures Count(SampleRight, n) == if n == 7 then 2 else if n == 2 || n == 13 || n == 11 then 1 else 0
  {
    SampleRightRuns(n);
    CountUniform([Card('D', 2)], 2, n);
    CountUniform([Card('H', 7), Card('H', 7)], 7, n);
    CountUniform([Card('S', 13)], 13, n);
    CountUniform([Card('H', 11)], 11, n);
  }

  /** No rank group of the right sample hand has three or four cards. */
  lemma SampleRightNoThreeOrFour()
    ensures !AnyGroupOfSize(SampleRight, 3) && !AnyGroupOfSize(SampleRight, 4)
  {
    forall i | 0 <= i < |SampleRight| ensures Count(SampleRight, SampleRight[i].number) <= 2 {
      SampleRightCounts(SampleRight[i].number);
    }
  }

  /** The right sample hand is a pair: no matcher before the one pair matcher accepts it. */
  lemma SampleRightIsOnePair()
    ensures Classify(SampleRight).matcher == OnePair && Classify(SampleRight).strength == 2
  {
    SampleRightGroupCount();
    SampleRightNoThreeOrFour();
    MixedSuits(SampleRight, 0, 1);
    FourGroupsIsOnePair(SampleRight);
  }

  /** The all-hearts left hand is a straight flush of strength 10, the right hand a pair
      of sevens of strength 2, so the left hand wins on strength alone. */
  lemma SampleOutcome()
    ensures Classify(SampleLeft) == Classification(StraightFlush, 10, None)
    ensures Classify(SampleRight).matcher == OnePair && Classify(SampleRight).strength == 2
    ensures Showdown(SampleLeft, SampleRight) == Ok(1)
  {
    SampleLeftIsStraightFlush();
    SampleRightIsOnePair();
  }

  /** The all-hearts left hand is a straight flush. */
  lemma SampleLeftIsStraightFlush()
    ensures Classify(SampleLeft) == Classification(StraightFlush, 10, None)
  {
    SingleSuitIsStraightFlush(SampleLeft);
  }

  /** `Main` on the sample input: the two hands land on different matchers, so the
      verdict is the plain comparison, a win for the left hand. */
  lemma SampleMainVerdict()
    ensures MainVerdict(SampleLeft, SampleRight) == Ok(1)
  {
    SampleOutcome();
  }

  /** "AD AH 9C 5S 3H": a pair of aces. */
  const AcesPair: seq<Card> := [Card('D', 14), Card('H', 14), Card('C', 9), Card('S', 5), Card('H', 3)]

  /** The pair of aces as runs of one rank. */
  lemma AcesPairRuns(n: int)
    ensures Count(AcesPair, n) ==
      Count([Card('D', 14), Card('H', 14)], n) + Count([Card('C', 9)], n) + Count([Card('S', 5)], n) + Count([Card('H', 3)], n)
  {
    var aces, nine, five, three := [Card('D', 14), Card('H', 14)], [Card('C', 9)], [Card('S', 5)], [Card('H', 3)];
    assert AcesPair == aces + nine + five + three;
    CountAppend(aces + nine + five, three, n);
    CountAppend(aces + nine, five, n);
    CountAppend(aces, nine, n);
  }

  /** The rank groups of the pair of aces: two aces and three single cards. */
  lemma AcesPairCounts(n: int)
    ensures Count(AcesPair, n) == if n == 14 then 2 else if n == 9 || n == 5 || n == 3 then 1 else 0
  {
    AcesPairRuns(n);
    CountUniform([Card('D', 14), Card('H', 14)], 14, n);
    CountUniform([Card('C', 9)], 9, n);
    CountUniform([Card('S', 5)], 5, n);
    CountUniform([Card('H', 3)], 3, n);
  }

  /** The pair of aces has four rank groups. */
  lemma AcesPairGroupCount()
    ensures RankGroupCount(AcesPair) == 4
  {
    var r := AcesPair;
    var d := Distinct(Numbers(r));
    assert Numbers(r)[0] == 14 && Numbers(r)[2] == 9 && Numbers(r)[3] == 5 && Numbers(r)[4] == 3;
    MembersBound(d, [14, 9, 5, 3]);
    RankGroupsFewer(r);
    assert r[0].number == r[1].number;
  }

  /** No rank group of the pair of aces has three or four cards. */
  lemma AcesPairNoThreeOrFour()
    ensures !AnyGroupOfSize(AcesPair, 3) && !AnyGroupOfSize(AcesPair, 4)
  {
    forall i | 0 <= i < |AcesPair| ensures Count(AcesPair, AcesPair[i].number) <= 2 {
      AcesPairCounts(AcesPair[i].number);
    }
  }

  /** The pair of aces is classified by the one pair matcher. */
  lemma AcesPairIsOnePair()
    ensures Classify(AcesPair).matcher == OnePair && Classify(AcesPair).strength == 2
  {
    AcesPairGroupCount();
    AcesPairNoThreeOrFour();
    MixedSuits(AcesPair, 0, 1);
    FourGroupsIsOnePair(AcesPair);
  }

  /** A one pair classification keeps the whole hand, and its first card belongs to a
      repeated rank whenever the hand has one. */
  lemma OnePairLeads(hand: seq<Card>, c: Card)
    requires |hand| > 0 && Classify(hand).matcher == OnePair
    requires c in hand && Count(hand, c.number) > 1
    ensures Classify(hand).sortedCards.Some?
    ensures |Classify(hand).sortedCards.value| == |hand|
    ensures Count(hand, Classify(hand).sortedCards.value[0].number) > 1
  {
    assert Classify(hand).sortedCards == OnePairMatch(hand).sortedCards;
    OnePairOrderLeads(hand, c);
  }

  /** The one pair matcher, on a hand it accepts, keeps the whole hand and opens with a
      card of a repeated rank. */
  lemma OnePairOrderLeads(hand: seq<Card>, c: Card)
    requires OnePairMatch(hand).matched
    requires c in hand && Count(hand, c.number) > 1
    ensures |OnePairMatch(hand).sortedCards.value| == |hand|
    ensures Count(hand, OnePairMatch(hand).sortedCards.value[0].number) > 1
  {
    var o := OnePairMatch(hand).sortedCards.value;
    KeepsAll(o, hand);
    LeadingCardGrouped(o, hand, Repeated, c);
  }

  /** The one pair ordering of the pair of aces opens with an ace. */
  lemma AcesLead()
    ensures Classify(AcesPair).sortedCards.Some?
    ensures |Classify(AcesPair).sortedCards.value| == 5
    ensures Classify(AcesPair).sortedCards.value[0].number == 14
  {
    AcesPairIsOnePair();
    OnePairLeads(AcesPair, AcesPair[0]);
    AcesPairCounts(AcesPair[0].number);
    AcesPairCounts(Classify(AcesPair).sortedCards.value[0].number);
  }

  /** The one pair ordering of the right sample hand opens with a seven. */
  lemma SevensLead()
    ensures Classify(SampleRight).sortedCards.Some?
    ensures |Classify(SampleRight).sortedCards.value| == 5
    ensures Classify(SampleRight).sortedCards.value[0].number == 7
  {
    SampleRightIsOnePair();
    OnePairLeads(SampleRight, SampleRight[1]);
    SampleRightCounts(SampleRight[1].number);
    SampleRightCounts(Classify(SampleRight).sortedCards.value[0].number);
  }

  /** Compared on their own, the pair of aces beats the pair of sevens on the first rank;
      through `Main`, which compares the shared one pair matcher with itself, it is a draw. */
  lemma AcesAgainstSevens()
    ensures Showdown(AcesPair, SampleRight) == Ok(1)
    ensures MainVerdict(AcesPair, SampleRight) == Ok(0)
  {
    AcesPairIsOnePair();
    SampleRightIsOnePair();
    AcesLead();
    SevensLead();
    var a, b := Classify(AcesPair).sortedCards.value, Classify(SampleRight).sortedCards.value;
    assert FirstDifference(a, b, 0, 0);
    SameCategoryNoWinner(AcesPair, SampleRight);
  }

  /** "TS JS QS KS AS": a textbook royal flush. */
  const RoyalHand: seq<Card> := [Card('S', 10), Card('S', 11), Card('S', 12), Card('S', 13), Card('S', 14)]

  /** "AH 2D 3C 4S 5H": a textbook ace-low straight. */
  const WheelHand: seq<Card> := [Card('H', 14), Card('D', 2), Card('C', 3), Card('S', 4), Card('H', 5)]

  /** The royal flush hand is classified by the straight flush matcher, without sorted cards. */
  lemma RoyalHandIsStraightFlush()
    ensures Classify(RoyalHand) == Classification(StraightFlush, 10, None)
  {
    SingleSuitIsStraightFlush(RoyalHand);
  }

  /** Comparing the royal flush hand with the all-hearts sample hand reads a null array. */
  lemma RoyalAgainstSampleLeftFaults()
    ensures Showdown(RoyalHand, SampleLeft) == Err(NullReference)
  {
    TwoSingleSuitHandsFault(RoyalHand, SampleLeft);
  }

  /** The ace-low straight is a high card hand: aces only rank 14 and runs are never found. */
  lemma WheelIsHighCard()
    ensures Classify(WheelHand).matcher == HighCard
  {
    MixedSuits(WheelHand, 0, 1);
    DistinctRanksMixedSuitsIsHighCard(WheelHand);
  }

  /** "2H 2D 2C 5S 5H": three twos and two fives. */
  const TwosOverFives: seq<Card> := [Card('H', 2), Card('D', 2), Card('C', 2), Card('S', 5), Card('H', 5)]

  /** "9H 9D 9C 3S 4H": three nines. */
  const ThreeNines: seq<Card> := [Card('H', 9), Card('D', 9), Card('C', 9), Card('S', 3), Card('H', 4)]

  /** Three twos with two fives is a full house. */
  lemma TwosOverFivesIsFullHouse()
    ensures Classify(TwosOverFives).matcher == FullHouse
    ensures Classify(TwosOverFives).strength == 7
  {
    var h := TwosOverFives;
    TwosOverFivesCounts(2);
    TwosOverFivesCounts(5);
    assert Count(h, h[0].number) == 3 && Count(h, h[3].number) == 2;
    MixedSuits(h, 0, 1);
    FullHouseIsClassified(h);
  }

  /** The sorted cards of the full house put the higher pair before the three. */
  lemma TwosOverFivesOrder()
    ensures FullHouseMatch(TwosOverFives).sortedCards ==
      Some([Card('S', 5), Card('H', 5), Card('H', 2), Card('D', 2), Card('C', 2)])
  {
    var h := TwosOverFives;
    var t := [Card('S', 5), Card('H', 5), Card('H', 2), Card('D', 2), Card('C', 2)];
    assert SameRankGroups(t, h) by {
      forall n ensures WithNumber(t, n) == WithNumber(h, n) {
        TwosOverFivesGroup(n);
      }
    }
    assert Descending(t);
    SortDescendingUnique(h, t);
    TwosOverFivesMatched();
  }

  /** The full house matcher accepts three twos with two fives. */
  lemma TwosOverFivesMatched()
    ensures FullHouseMatch(TwosOverFives).matched
  {
    var h := TwosOverFives;
    TwosOverFivesCounts(2);
    TwosOverFivesCounts(5);
    assert Count(h, h[0].number) == 3 && Count(h, h[3].number) == 2;
    FullHouseOnFiveGroups(h);
  }

  /** Three twos and two fives. */
  lemma TwosOverFivesCounts(n: int)
    ensures Count(TwosOverFives, n) == if n == 2 then 3 else if n == 5 then 2 else 0
  {
    var twos := [Card('H', 2), Card('D', 2), Card('C', 2)];
    var fives := [Card('S', 5), Card('H', 5)];
    assert TwosOverFives == twos + fives;
    CountAppend(twos, fives, n);
    CountUniform(twos, 2, n);
    CountUniform(fives, 5, n);
  }

  /** Each rank group of the full house, and of its expected ordering. */
  lemma TwosOverFivesGroup(n: int)
    ensures WithNumber(TwosOverFives, n) ==
      WithNumber([Card('S', 5), Card('H', 5), Card('H', 2), Card('D', 2), Card('C', 2)], n)
  {
    var twos := [Card('H', 2), Card('D', 2), Card('C', 2)];
    var fives := [Card('S', 5), Card('H', 5)];
    assert TwosOverFives == twos + fives;
    assert [Card('S', 5), Card('H', 5), Card('H', 2), Card('D', 2), Card('C', 2)] == fives + twos;
    SwapRuns(twos, fives, 2, 5, n);
  }

  /** The three-nines hand as runs of one rank: three nines, a three and a four. */
  lemma ThreeNinesRuns(n: int)
    ensures Count(ThreeNines, n) ==
      Count([Card('H', 9), Card('D', 9), Card('C', 9)], n) + Count([Card('S', 3)], n) + Count([Card('H', 4)], n)
  {
    var nines, three, four := [Card('H', 9), Card('D', 9), Card('C', 9)], [Card('S', 3)], [Card('H', 4)];
    assert ThreeNines == nines + three + four;
    CountAppend(nines + three, four, n);
    CountAppend(nines, three, n);
  }

  /** Three nines, a three and a four. */
  lemma ThreeNinesCounts(n: int)
    ensures Count(ThreeNines, n) == if n == 9 then 3 else if n == 3 || n == 4 then 1 else 0
  {
    ThreeNinesRuns(n);
    CountUniform([Card('H', 9), Card('D', 9), Card('C', 9)], 9, n);
    CountUniform([Card('S', 3)], 3, n);
    CountUniform([Card('H', 4)], 4, n);
  }

  /** The nines form a group of three; no group has four cards. */
  lemma ThreeNinesGroups()
    ensures AnyGroupOfSize(ThreeNines, 3) && !AnyGroupOfSize(ThreeNines, 4)
  {
    forall i | 0 <= i < |ThreeNines| ensures Count(ThreeNines, ThreeNines[i].number) <= 3 {
      ThreeNinesCounts(ThreeNines[i].number);
    }
    ThreeNinesCounts(9);
    assert Count(ThreeNines, ThreeNines[0].number) == 3;
  }

  /** Three nines with two odd cards make three rank groups. */
  lemma ThreeNinesGroupCount()
    ensures RankGroupCount(ThreeNines) >= 3
  {
    var h := ThreeNines;
    var d := Distinct(Numbers(h));
    assert Numbers(h)[0] == 9 && Numbers(h)[3] == 3 && Numbers(h)[4] == 4;
    MembersBound(d, [9, 3, 4]);
  }

  /** Three nines is three of a kind. */
  lemma ThreeNinesIsThreeCards()
    ensures Classify(ThreeNines).matcher == ThreeCards
    ensures Classify(ThreeNines).strength == 4
  {
    ThreeNinesGroups();
    ThreeNinesGroupCount();
    MixedSuits(ThreeNines, 0, 1);
    ThreeCardsIsClassified(ThreeNines);
  }

  /** The full house beats three of a kind on strength. */
  lemma FullHouseBeatsThreeCards()
    ensures Showdown(TwosOverFives, ThreeNines) == Ok(1)
  {
    TwosOverFivesIsFullHouse();
    ThreeNinesIsThreeCards();
  }

  /** "7D 9D 7H 9H KS": two pairs, the sevens dealt first. */
  const SevensNines: seq<Card> := [Card('D', 7), Card('D', 9), Card('H', 7), Card('H', 9), Card('S', 13)]

  /** The rank groups of the hand: two sevens, two nines and a king. */
  lemma SevensNinesCounts(n: int)
    ensures Count(SevensNines, n) == if n == 7 || n == 9 then 2 else if n == 13 then 1 else 0
  {
    var h := SevensNines;
    assert h == [h[0]] + [h[1]] + [h[2]] + [h[3]] + [h[4]];
    CountAppend([h[0]] + [h[1]] + [h[2]] + [h[3]], [h[4]], n);
    CountAppend([h[0]] + [h[1]] + [h[2]], [h[3]], n);
    CountAppend([h[0]] + [h[1]], [h[2]], n);
    CountAppend([h[0]], [h[1]], n);
    CountUniform([h[0]], 7, n);
    CountUniform([h[1]], 9, n);
    CountUniform([h[2]], 7, n);
    CountUniform([h[3]], 9, n);
    CountUniform([h[4]], 13, n);
  }

  /** The hand has three rank groups. */
  lemma SevensNinesGroupCount()
    ensures RankGroupCount(SevensNines) == 3
  {
    assert Numbers(SevensNines) == [7, 9, 7, 9, 13];
    assert [7, 9, 7, 9, 13][..4] == [7, 9, 7, 9];
    assert [7, 9, 7, 9][..3] == [7, 9, 7];
    assert [7, 9, 7][..2] == [7, 9];
    assert [7, 9][..1] == [7];
    assert Distinct([7]) == [7];
    assert Distinct([7, 9]) == [7, 9];
    assert Distinct([7, 9, 7]) == [7, 9];
    assert Distinct([7, 9, 7, 9]) == [7, 9];
  }

  /** The one pair matcher lays the pairs out in the order their ranks are first dealt:
      the sevens lead, although the nines are higher. */
  lemma SevensNinesOnePairOrder()
    ensures OnePairMatch(SevensNines).matched
    ensures OnePairMatch(SevensNines).sortedCards.value[0].number == 7
  {
    SevensNinesGroupCount();
    SevensNinesCounts(7);
    OnePairLeader(SevensNines);
  }

  /** The two pairs matcher puts the higher pair, the nines, first. */
  lemma SevensNinesTwoPairsOrder()
    ensures TwoPairsMatch(SevensNines).matched
    ensures TwoPairsMatch(SevensNines).sortedCards.value[0].number == 9
  {
    SevensNinesGroupCount();
    SevensNinesHighestPair();
    SevensNinesCounts(9);
    TwoPairsLeader(SevensNines, SevensNines[1]);
  }

  /** The nines are the highest paired rank. */
  lemma SevensNinesHighestPair()
    ensures forall d :: d in SevensNines && Count(SevensNines, d.number) > 1 ==> d.number <= 9
  {
    forall d | d in SevensNines && Count(SevensNines, d.number) > 1 ensures d.number <= 9 {
      SevensNinesCounts(d.number);
    }
  }
}

=== FILE: shapes.dfy ===
/** What the rank-group tests of the matchers mean on the five-card hands `Main` deals. */
module Shapes {
  import opened Cards
  import opened Hands
  import opened Wrappers
  import opened Grouping
  import opened Matchers
  import opened Comparer
  import opened Pipeline

  /** No two cards share a rank. */
  predicate DistinctRanks(hand: seq<Card>) {
    forall i, j :: 0 <= i < j < |hand| ==> hand[i].number != hand[j].number
  }

  /** With distinct ranks every rank group holds at most one card. */
  lemma {:induction false} CountAtMostOne(hand: seq<Card>, n: int)
    requires DistinctRanks(hand)
    ensures Count(hand, n) <= 1
  {
    if |hand| > 0 {
      assert DistinctRanks(hand[1..]);
      CountAtMostOne(hand[1..], n);
      if hand[0].number == n {
        CountPositive(hand[1..], n);
        assert n !in Numbers(hand[1..]);
      }
    }
  }

  /** With distinct ranks every card is alone in its rank group. */
  lemma SingletonGroups(hand: seq<Card>, i: nat)
    requires DistinctRanks(hand) && i < |hand|
    ensures Count(hand, hand[i].number) == 1
  {
    CountAtMostOne(hand, hand[i].number);
    CountPositive(hand, hand[i].number);
    assert Numbers(hand)[i] == hand[i].number;
  }

  /** On five cards the one pair matcher accepts exactly the hands with a repeated rank. */
  lemma OnePairOnFive(hand: seq<Card>)
    requires |hand| == 5
    ensures OnePairMatch(hand).matched <==> !DistinctRanks(hand)
  {
    RankGroupsFewer(hand);
  }

  /** Cards of two ranks only: their groups fill the hand. */
  lemma {:induction false} TwoGroupsFill(hand: seq<Card>, a: int, b: int)
    requires a != b
    ensures Count(hand, a) + Count(hand, b) <= |hand|
    ensures Count(hand, a) + Count(hand, b) == |hand| <==>
      forall i :: 0 <= i < |hand| ==> hand[i].number == a || hand[i].number == b
  {
    if |hand| > 0 {
      TwoGroupsFill(hand[1..], a, b);
      assert forall i :: 1 <= i < |hand| ==> hand[i] == hand[1..][i - 1];
    }
  }

  /** The keys of a sequence over two values number at most two. */
  lemma {:induction false} DistinctWithinTwo(xs: seq<int>, a: int, b: int)
    requires forall i :: 0 <= i < |xs| ==> xs[i] == a || xs[i] == b
    ensures |Distinct(xs)| <= 2
  {
    if |xs| > 0 {
      var init := xs[..|xs| - 1];
      DistinctWithinTwo(init, a, b);
      var d := Distinct(init);
      if |d| == 2 {
        assert d[0] in init && d[1] in init;
        assert d[0] != d[1];
        assert xs[|xs| - 1] in d;
      }
    }
  }

  /** Five cards of two ranks, neither held by a single card: three of one and two of the other. */
  lemma TwoRanksSplit(hand: seq<Card>, ia: nat, ib: nat)
    requires |hand| == 5 && ia < 5 && ib < 5
    requires hand[ia].number != hand[ib].number
    requires forall i :: 0 <= i < |hand| ==> hand[i].number == hand[ia].number || hand[i].number == hand[ib].number
    requires Count(hand, hand[ia].number) != 1 && Count(hand, hand[ib].number) != 1
    ensures (Count(hand, hand[ia].number) == 3 && Count(hand, hand[ib].number) == 2) ||
            (Count(hand, hand[ia].number) == 2 && Count(hand, hand[ib].number) == 3)
  {
    var a, b := hand[ia].number, hand[ib].number;
    TwoGroupsFill(hand, a, b);
    assert Numbers(hand)[ia] == a && Numbers(hand)[ib] == b;
    CountPositive(hand, a);
    CountPositive(hand, b);
  }

  /** Every value of a sequence with two keys is one of the two. */
  lemma TwoKeys(xs: seq<int>)
    requires |Distinct(xs)| == 2
    ensures forall i :: 0 <= i < |xs| ==> xs[i] == Distinct(xs)[0] || xs[i] == Distinct(xs)[1]
  {
    var d := Distinct(xs);
    forall i | 0 <= i < |xs| ensures xs[i] == d[0] || xs[i] == d[1] {
      assert xs[i] in d;
    }
  }

  /** Two rank groups, none of a single card, on five cards: a group of three and one of two. */
  lemma FullHouseOnFiveShape(hand: seq<Card>)
    requires |hand| == 5 && RankGroupCount(hand) == 2 && !AnyGroupOfSize(hand, 1)
    ensures AnyGroupOfSize(hand, 3) && AnyGroupOfSize(hand, 2)
  {
    var xs := Numbers(hand);
    var d := Distinct(xs);
    assert d[0] in xs && d[1] in xs;
    var ia :| 0 <= ia < |hand| && xs[ia] == d[0];
    var ib :| 0 <= ib < |hand| && xs[ib] == d[1];
    TwoKeys(xs);
    TwoRanksSplit(hand, ia, ib);
  }

  /** In a five-card hand with three cards of rank `a` and two of rank `b`, every card has one of the two ranks. */
  lemma FullHouseRanks(hand: seq<Card>, a: int, b: int)
    requires |hand| == 5 && Count(hand, a) == 3 && Count(hand, b) == 2
    ensures forall k :: 0 <= k < |hand| ==> hand[k].number == a || hand[k].number == b
  {
    TwoGroupsFill(hand, a, b);
  }

  /** In such a hand every rank group holds two or three cards: none holds one or four. */
  lemma FullHouseGroupSizes(hand: seq<Card>, a: int, b: int)
    requires |hand| == 5 && Count(hand, a) == 3 && Count(hand, b) == 2
    ensures !AnyGroupOfSize(hand, 1) && !AnyGroupOfSize(hand, 4)
  {
    FullHouseRanks(hand, a, b);
    forall k | 0 <= k < |hand| ensures Count(hand, hand[k].number) == 2 || Count(hand, hand[k].number) == 3 {
    }
  }

  /** In such a hand there are exactly the two rank groups. */
  lemma FullHouseGroupCount(hand: seq<Card>, i: nat, j: nat)
    requires |hand| == 5 && i < 5 && j < 5
    requires Count(hand, hand[i].number) == 3 && Count(hand, hand[j].number) == 2
    ensures RankGroupCount(hand) == 2
  {
    var a, b := hand[i].number, hand[j].number;
    FullHouseRanks(hand, a, b);
    DistinctWithinTwo(Numbers(hand), a, b);
    var xs := Numbers(hand);
    assert xs[i] == a && xs[j] == b;
    MembersBound(Distinct(xs), [a, b]);
  }

  /** A five-card hand with a group of three and one of two has two rank groups, none of a single card
      and none of four. */
  lemma FullHouseOnFiveGroups(hand: seq<Card>)
    requires |hand| == 5 && AnyGroupOfSize(hand, 3) && AnyGroupOfSize(hand, 2)
    ensures RankGroupCount(hand) == 2 && !AnyGroupOfSize(hand, 1) && !AnyGroupOfSize(hand, 4)
  {
    var i :| 0 <= i < |hand| && Count(hand, hand[i].number) == 3;
    var j :| 0 <= j < |hand| && Count(hand, hand[j].number) == 2;
    FullHouseGroupSizes(hand, hand[i].number, hand[j].number);
    FullHouseGroupCount(hand, i, j);
  }

  /** On five cards the full house matcher accepts exactly a group of three with a group of two. */
  lemma FullHouseOnFive(hand: seq<Card>)
    requires |hand| == 5
    ensures FullHouseMatch(hand).matched <==> AnyGroupOfSize(hand, 3) && AnyGroupOfSize(hand, 2)
  {
    if RankGroupCount(hand) == 2 && !AnyGroupOfSize(hand, 1) {
      FullHouseOnFiveShape(hand);
    }
    if AnyGroupOfSize(hand, 3) && AnyGroupOfSize(hand, 2) {
      FullHouseOnFiveGroups(hand);
    }
  }

  /** Five cards of distinct ranks and more than one suit are a high card hand, however
      the ranks run: a textbook straight such as 2-3-4-5-6 is not recognised. */
  lemma DistinctRanksMixedSuitsIsHighCard(hand: seq<Card>)
    requires |hand| == 5 && DistinctRanks(hand) && !SameColor(hand)
    ensures Classify(hand).matcher == HighCard
    ensures Classify(hand).strength == 1
  {
    RankGroupsFewer(hand);
    assert forall i :: 0 <= i < |hand| ==> Count(hand, hand[i].number) == 1 by {
      forall i | 0 <= i < |hand| ensures Count(hand, hand[i].number) == 1 {
        SingletonGroups(hand, i);
      }
    }
    forall m | Position(m) < Position(HighCard) ensures !Accepts(m, hand) {
      match m
      case RoyalFlush =>
      case StraightFlush =>
      case FourOfAKind =>
      case FullHouse =>
      case Flush =>
      case Straight =>
      case ThreeCards =>
      case TwoPairs =>
      case OnePair =>
    }
    ClassifyIs(hand, HighCard);
  }

  /** A mixed-suit hand of three or more cards with four rank groups, none of three or four
      cards, is classified by the one pair matcher. */
  lemma FourGroupsIsOnePair(hand: seq<Card>)
    requires |hand| >= 3 && !SameColor(hand)
    requires RankGroupCount(hand) == 4 && !AnyGroupOfSize(hand, 3) && !AnyGroupOfSize(hand, 4)
    ensures Classify(hand).matcher == OnePair
    ensures Classify(hand).strength == 2
  {
    forall m | Position(m) < Position(OnePair) ensures !Accepts(m, hand) {
      match m
      case RoyalFlush =>
      case StraightFlush =>
      case FourOfAKind =>
      case FullHouse =>
      case Flush =>
      case Straight =>
      case ThreeCards =>
      case TwoPairs =>
    }
    ClassifyIs(hand, OnePair);
  }

  /** A mixed-suit hand with two rank groups, none of one or four cards, passes the full
      house matcher and no matcher before it. */
  lemma FullHouseFirst(hand: seq<Card>)
    requires |hand| > 0 && !SameColor(hand)
    requires RankGroupCount(hand) == 2 && !AnyGroupOfSize(hand, 1) && !AnyGroupOfSize(hand, 4)
    ensures Accepts(FullHouse, hand)
    ensures forall m :: Position(m) < Position(FullHouse) ==> !Accepts(m, hand)
  {
    forall m | Position(m) < Position(FullHouse) ensures !Accepts(m, hand) {
      match m
      case RoyalFlush =>
      case StraightFlush =>
      case FourOfAKind =>
    }
  }

  /** A mixed-suit five-card hand with a group of three and a group of two is classified
      by the full house matcher. */
  lemma FullHouseIsClassified(hand: seq<Card>)
    requires |hand| == 5 && !SameColor(hand)
    requires AnyGroupOfSize(hand, 3) && AnyGroupOfSize(hand, 2)
    ensures Classify(hand).matcher == FullHouse
    ensures Classify(hand).strength == 7
  {
    FullHouseOnFiveGroups(hand);
    FullHouseFirst(hand);
    ClassifyIs(hand, FullHouse);
  }

  /** A mixed-suit hand of three or more cards with a group of three, none of four, and
      other than two rank groups passes the three cards matcher and no matcher before it. */
  lemma ThreeCardsFirst(hand: seq<Card>)
    requires |hand| >= 3 && !SameColor(hand)
    requires AnyGroupOfSize(hand, 3) && !AnyGroupOfSize(hand, 4) && RankGroupCount(hand) != 2
    ensures Accepts(ThreeCards, hand)
    ensures forall m :: Position(m) < Position(ThreeCards) ==> !Accepts(m, hand)
  {
    forall m | Position(m) < Position(ThreeCards) ensures !Accepts(m, hand) {
      match m
      case RoyalFlush =>
      case StraightFlush =>
      case FourOfAKind =>
      case FullHouse =>
      case Flush =>
      case Straight =>
    }
  }

  /** Such a hand is classified by the three cards matcher. */
  lemma ThreeCardsIsClassified(hand: seq<Card>)
    requires |hand| >= 3 && !SameColor(hand)
    requires AnyGroupOfSize(hand, 3) && !AnyGroupOfSize(hand, 4) && RankGroupCount(hand) != 2
    ensures Classify(hand).matcher == ThreeCards
    ensures Classify(hand).strength == 4
  {
    ThreeCardsFirst(hand);
    ClassifyIs(hand, ThreeCards);
  }

  /** Beside a rank of `big` cards in a five-card hand, every other rank has at most
      `5 - big` cards. */
  lemma OtherRanksBounded(hand: seq<Card>, a: int, big: nat)
    requires |hand| == 5 && Count(hand, a) == big
    ensures forall k :: 0 <= k < |hand| && hand[k].number != a ==> Count(hand, hand[k].number) <= 5 - big
  {
    forall k | 0 <= k < |hand| && hand[k].number != a ensures Count(hand, hand[k].number) <= 5 - big {
      TwoGroupsFill(hand, a, hand[k].number);
    }
  }

  /** On five cards with four of a kind, the four of a kind matcher keeps all five cards:
      the fifth card is a kicker. */
  lemma FourOfAKindKeepsFive(hand: seq<Card>)
    requires |hand| == 5 && AnyGroupOfSize(hand, 4)
    ensures FourOfAKindMatch(hand).sortedCards.Some?
    ensures |FourOfAKindMatch(hand).sortedCards.value| == 5
  {
    FourOrSingle(hand);
    var o := FourOfAKindMatch(hand).sortedCards.value;
    EveryRankKept(o, hand, OfSize(4));
    KeepsAll(o, hand);
  }

  /** On five cards with four of a kind every rank has four cards or one. */
  lemma FourOrSingle(hand: seq<Card>)
    requires |hand| == 5 && AnyGroupOfSize(hand, 4)
    ensures forall k :: 0 <= k < |hand| ==>
      Admits(OfSize(4), Count(hand, hand[k].number)) || Count(hand, hand[k].number) <= 1
  {
    var i :| 0 <= i < |hand| && Count(hand, hand[i].number) == 4;
    OtherRanksBounded(hand, hand[i].number, 4);
  }

  /** On five cards with three of a kind and no pair, the three cards matcher keeps all
      five cards: the other two are kickers. */
  lemma ThreeCardsKeepsFive(hand: seq<Card>)
    requires |hand| == 5 && AnyGroupOfSize(hand, 3) && !AnyGroupOfSize(hand, 2)
    ensures ThreeCardsMatch(hand).sortedCards.Some?
    ensures |ThreeCardsMatch(hand).sortedCards.value| == 5
  {
    ThreeOrSingle(hand);
    var o := ThreeCardsMatch(hand).sortedCards.value;
    EveryRankKept(o, hand, OfSize(3));
    KeepsAll(o, hand);
  }

  /** On five cards with three of a kind and no pair every rank has three cards or one. */
  lemma ThreeOrSingle(hand: seq<Card>)
    requires |hand| == 5 && AnyGroupOfSize(hand, 3) && !AnyGroupOfSize(hand, 2)
    ensures forall k :: 0 <= k < |hand| ==>
      Admits(OfSize(3), Count(hand, hand[k].number)) || Count(hand, hand[k].number) <= 1
  {
    var i :| 0 <= i < |hand| && Count(hand, hand[i].number) == 3;
    OtherRanksBounded(hand, hand[i].number, 3);
    assert forall k :: 0 <= k < |hand| ==> Count(hand, hand[k].number) != 2;
  }

  /** Five cards with three of a kind that the full house matcher rejects hold no pair. */
  lemma NoPairBesideThree(hand: seq<Card>)
    requires |hand| == 5 && AnyGroupOfSize(hand, 3)
    requires !(RankGroupCount(hand) == 2 && !AnyGroupOfSize(hand, 1))
    ensures !AnyGroupOfSize(hand, 2)
  {
    if AnyGroupOfSize(hand, 2) {
      FullHouseOnFiveGroups(hand);
      assert false;
    }
  }

  /** On five cards a matcher other than the straight flush matcher that accepts the hand,
      when no matcher listed before it does, keeps all five cards. (The three cards matcher
      drops a pair beside the three, but then the full house matcher comes first.) */
  lemma ChosenKeepsFive(hand: seq<Card>, m: Matcher)
    requires |hand| == 5 && Accepts(m, hand) && m != StraightFlush
    requires forall m' :: Position(m') < Position(m) ==> !Accepts(m', hand)
    ensures Match(m, hand).sortedCards.Some?
    ensures |Match(m, hand).sortedCards.value| == 5
  {
    match m
    case FourOfAKind =>
      FourOfAKindKeepsFive(hand);
    case ThreeCards =>
      assert Position(FullHouse) < Position(ThreeCards);
      NoPairBesideThree(hand);
      ThreeCardsKeepsFive(hand);
    case RoyalFlush =>
      assert false;
    case FullHouse =>
      KeepsAll(FullHouseMatch(hand).sortedCards.value, hand);
    case Flush =>
      KeepsAll(FlushMatch(hand).sortedCards.value, hand);
    case Straight =>
      assert false;
    case TwoPairs =>
      KeepsAll(TwoPairsMatch(hand).sortedCards.value, hand);
    case OnePair =>
      KeepsAll(OnePairMatch(hand).sortedCards.value, hand);
    case HighCard =>
      KeepsAll(HighCardMatch(hand).sortedCards.value, hand);
  }

  /** A permutation of the hand has the hand's length. */
  lemma KeepsAll(o: seq<Card>, hand: seq<Card>)
    requires multiset(o) == multiset(hand)
    ensures |o| == |hand|
  {
    assert |multiset(o)| == |multiset(hand)|;
  }

  /** On five cards every category but the straight flush leaves all five cards to compare:
      the tie-break always reads two arrays of five. */
  lemma ClassifyKeepsFive(hand: seq<Card>)
    requires |hand| == 5 && Classify(hand).matcher != StraightFlush
    ensures Classify(hand).sortedCards.Some?
    ensures |Classify(hand).sortedCards.value| == 5
  {
    ChosenKeepsFive(hand, Classify(hand).matcher);
  }

  /** Two five-card hands of strength 10 are single-suit hands, and `Compare` reads a null array. */
  lemma ShowdownOnStrengthTen(left: seq<Card>, right: seq<Card>)
    requires |left| == 5 && |right| == 5
    requires Classify(left).strength == 10 && Classify(right).strength == 10
    ensures Showdown(left, right) == Err(NullReference)
  {
    StrengthTenIffSingleSuit(left);
    StrengthTenIffSingleSuit(right);
    TwoSingleSuitHandsFault(left, right);
  }

  /** Two five-card hands of equal strength below 10: the tie is broken by the first position
      where the two five-card sorted arrays differ in rank, and is a draw when none does. */
  lemma ShowdownTieBreak(left: seq<Card>, right: seq<Card>)
    requires |left| == 5 && |right| == 5
    requires Classify(left).strength == Classify(right).strength != 10
    ensures Comparable(Classify(left), Classify(right)) && |Classify(left).sortedCards.value| == 5
    ensures var a, b := Classify(left).sortedCards.value, Classify(right).sortedCards.value;
      && Showdown(left, right).Ok?
      && (Showdown(left, right) == Ok(0) <==> RanksAgree(a, b, 0, 5))
      && (Showdown(left, right) == Ok(1) <==> exists k :: 0 <= k < 5 && FirstDifference(a, b, 0, k) && a[k].number > b[k].number)
      && (Showdown(left, right) == Ok(-1) <==> exists k :: 0 <= k < 5 && FirstDifference(a, b, 0, k) && a[k].number < b[k].number)
  {
    ClassifyKeepsFive(left);
    ClassifyKeepsFive(right);
    CompareTieBreak(Classify(left), Classify(right));
  }
}

=== FILE: sorting.dfy ===
/** `OrderByDescending(x => x.Number)`: a stable sort by rank, highest first. Cards of
    equal rank keep their hand order, so the sort is determined by two facts: the result
    is descending, and each rank group is the hand's group unchanged. */
module Sorting {
  import opened Cards
  import opened Hands

  /** Ranks never increase along the sequence. */
  predicate Descending(s: seq<Card>) {
    forall i, j :: 0 <= i < j < |s| ==> s[i].number >= s[j].number
  }

  /** Every rank has the same group (cards and their order) in `a` as in `b`. */
  ghost predicate SameRankGroups(a: seq<Card>, b: seq<Card>) {
    forall n :: WithNumber(a, n) == WithNumber(b, n)
  }

  /** Inserts `c` before the first card of rank not above its own, so `c` precedes the
      cards of equal rank that follow it in the hand. */
  function Insert(c: Card, sorted: seq<Card>): (r: seq<Card>)
    ensures multiset(r) == multiset(sorted) + multiset{c}
    ensures forall n :: WithNumber(r, n) == if c.number == n then [c] + WithNumber(sorted, n) else WithNumber(sorted, n)
  {
    if |sorted| == 0 || sorted[0].number <= c.number then
      assert ([c] + sorted)[1..] == sorted;
      [c] + sorted
    else
      var rest := Insert(c, sorted[1..]);
      assert sorted == [sorted[0]] + sorted[1..];
      assert ([sorted[0]] + rest)[1..] == rest;
      [sorted[0]] + rest
  }

  /** Inserting into a descending sequence keeps it descending. */
  lemma {:induction false} InsertDescending(c: Card, sorted: seq<Card>)
    requires Descending(sorted)
    ensures Descending(Insert(c, sorted))
  {
    if |sorted| > 0 && sorted[0].number > c.number {
      var rest := Insert(c, sorted[1..]);
      InsertDescending(c, sorted[1..]);
      forall x | x in rest ensures x.number <= sorted[0].number {
        assert x in multiset(rest);
        if x != c {
          assert x in sorted[1..];
        }
      }
    }
  }

  /** The stable descending sort by rank. */
  function SortDescending(hand: seq<Card>): (r: seq<Card>)
    ensures Descending(r)
    ensures SameRankGroups(r, hand)
    ensures multiset(r) == multiset(hand)
    ensures |r| == |hand|
  {
    if |hand| == 0 then []
    else
      InsertStep(hand, SortDescending(hand[1..]));
      Insert(hand[0], SortDescending(hand[1..]))
  }

  /** Inserting the first card into the sorted rest of the hand sorts the whole hand. */
  lemma InsertStep(hand: seq<Card>, sorted: seq<Card>)
    requires |hand| > 0
    requires Descending(sorted) && SameRankGroups(sorted, hand[1..])
    requires multiset(sorted) == multiset(hand[1..])
    ensures Descending(Insert(hand[0], sorted))
    ensures SameRankGroups(Insert(hand[0], sorted), hand)
    ensures multiset(Insert(hand[0], sorted)) == multiset(hand)
    ensures |Insert(hand[0], sorted)| == |hand|
  {
    InsertDescending(hand[0], sorted);
    InsertGroups(hand, sorted);
    InsertCards(hand, sorted);
  }

  /** The first card joins the front of its rank group; the other groups stay as they were. */
  lemma InsertGroups(hand: seq<Card>, sorted: seq<Card>)
    requires |hand| > 0 && SameRankGroups(sorted, hand[1..])
    ensures SameRankGroups(Insert(hand[0], sorted), hand)
  {
    var r := Insert(hand[0], sorted);
    forall n ensures WithNumber(r, n) == WithNumber(hand, n) {
      assert WithNumber(sorted, n) == WithNumber(hand[1..], n);
    }
  }

  /** The first card is added to the cards of the sorted rest. */
  lemma InsertCards(hand: seq<Card>, sorted: seq<Card>)
    requires |hand| > 0 && multiset(sorted) == multiset(hand[1..])
    ensures multiset(Insert(hand[0], sorted)) == multiset(hand)
    ensures |Insert(hand[0], sorted)| == |hand|
  {
    var r := Insert(hand[0], sorted);
    assert multiset(hand) == multiset{hand[0]} + multiset(hand[1..]) by {
      assert hand == [hand[0]] + hand[1..];
    }
    assert |r| == |multiset(r)|;
  }

  /** Equal rank groups make two sequences permutations of each other. */
  lemma SameGroupsPermutation(a: seq<Card>, b: seq<Card>)
    requires SameRankGroups(a, b)
    ensures multiset(a) == multiset(b)
  {
    forall c ensures multiset(a)[c] == multiset(b)[c] {
      WithNumberContents(a, c.number, c);
      WithNumberContents(b, c.number, c);
    }
  }

  /** The rank of a card of `t` is at most the rank `t` starts with. */
  lemma DescendingHeadBounds(t: seq<Card>, x: Card)
    requires Descending(t) && x in t
    ensures x.number <= t[0].number
  {
    var k :| 0 <= k < |t| && t[k] == x;
  }

  /** Descending sequences with the same rank groups start with the same card. */
  lemma SameHead(r: seq<Card>, t: seq<Card>)
    requires Descending(r) && Descending(t)
    requires SameRankGroups(r, t)
    requires |r| > 0
    ensures |t| > 0 && r[0] == t[0]
  {
    assert r[0] in WithNumber(r, r[0].number);
    assert WithNumber(t, r[0].number) == WithNumber(r, r[0].number);
    var x := WithNumber(t, r[0].number)[0];
    assert x in t;
    DescendingHeadBounds(t, x);
    assert t[0] in WithNumber(t, t[0].number);
    assert WithNumber(r, t[0].number) == WithNumber(t, t[0].number);
    var y := WithNumber(r, t[0].number)[0];
    assert y in r;
    DescendingHeadBounds(r, y);
    var n := r[0].number;
    assert WithNumber(r, n)[0] == r[0];
    assert WithNumber(t, n)[0] == t[0];
  }

  /** Removing an equal first card keeps the rank groups equal. */
  lemma SameTailGroups(r: seq<Card>, t: seq<Card>)
    requires |r| > 0 && |t| > 0 && r[0] == t[0]
    requires SameRankGroups(r, t)
    ensures SameRankGroups(r[1..], t[1..])
  {
    forall m ensures WithNumber(r[1..], m) == WithNumber(t[1..], m) {
      var head := if r[0].number == m then [r[0]] else [];
      assert WithNumber(r, m) == head + WithNumber(r[1..], m);
      assert WithNumber(t, m) == head + WithNumber(t[1..], m);
      assert WithNumber(r[1..], m) == (head + WithNumber(r[1..], m))[|head|..];
      assert WithNumber(t[1..], m) == (head + WithNumber(t[1..], m))[|head|..];
    }
  }

  /** Two descending sequences with the same rank groups are equal. */
  lemma {:induction false} DescendingGroupsDetermine(r: seq<Card>, t: seq<Card>)
    requires Descending(r) && Descending(t)
    requires SameRankGroups(r, t)
    ensures r == t
  {
    if |r| > 0 {
      SameHead(r, t);
      SameTailGroups(r, t);
      DescendingGroupsDetermine(r[1..], t[1..]);
      assert r == [r[0]] + r[1..] && t == [t[0]] + t[1..];
    } else if |t| > 0 {
      SameHead(t, r);
      assert false;
    }
  }

  /** The sort is the only descending arrangement that keeps every rank group in hand order. */
  lemma SortDescendingUnique(hand: seq<Card>, t: seq<Card>)
    requires Descending(t) && SameRankGroups(t, hand)
    ensures t == SortDescending(hand)
  {
    DescendingGroupsDetermine(t, SortDescending(hand));
  }
}

=== FILE: wrappers.dfy ===
/** Optional values and results with an error, used where the evaluator can hold a
    null reference or throw. */
module Wrappers {

  /** A value that may be missing (a null reference in the evaluator). */
  datatype Option<+T> = None | Some(value: T)

  /** A value, or the error that stops the computation (an exception in the evaluator). */
  datatype Result<+T, +E> = Ok(value: T) | Err(error: E)
}
